=== FILE: README.md ===
# recipe-cart-crafter in Dafny

A model of the logic of recipe-cart-crafter, a meal-planning web
application. Its pages keep a recipe library, a weekly meal plan, a shopping
list and an ingredient bank of scanned nutrition labels. Two server
functions ask an AI gateway to find recipes and to read nutrition labels.
The model covers what those pages and functions compute:

- **Meal plan.** The Monday-keyed week and paging between weeks. The
  7 × 3 grid of days and meal types, and the add-meal dialog.
- **Shopping list.** Adding an item, the grouping by store, the displayed
  defaults, and the edits one row can make.
- **Add to shopping list.** How the recipes page and the home page turn a
  recipe's ingredient rows into shopping-list drafts.
- **Recipe search.** The query guard, the request states and what each
  shows. "Add to Library", which stores a found recipe and its ingredients.
- **Ingredient bank.** Photo intake: the image check, the storage name, and
  the record built from the label reading.
- **Server functions.** Both handlers: request validation, mapping of
  gateway errors to statuses, extraction of the reply, and stripping of
  Markdown code fences before parsing with a fallback.

Backend calls, JSON parsing, the clock and random ids are parameters of the
operations. The JavaScript values that cross the boundaries are a datatype
(`JsValues.Value`), so `||`, `??`, `?.` and truthiness behave as in
ECMAScript. Dates are day numbers (day 0 is 1970-01-01) and are linked to
their `YYYY-MM-DD` text both ways:

- `Calendar` is a proleptic Gregorian calendar.
- `FullDate` is the `full-date` format of section 5.6 of RFC 3339, with the
  expanded years of ECMA-262 section 21.4.1.32.2.

Modules, one per file: `Wrappers`, `JsValues`, `Strings`, `Calendar`,
`FullDate`, `Week`, `MealGrid`, `Shopping`, `ItemEditor`, `RecipesPage`,
`IndexPage`, `SearchPage`, `IngredientBank`, `AiGateway`,
`AnalyzeNutrition`, `SearchRecipesFn`.

Shopping-list drafts made from a recipe carry no owner id: the recipes
page and the home page insert them without a `user_id` column.

## Model

| member | source | states |
|---|---|---|
| Strings.Trim | src/pages/Shopping.tsx:54-55 | the trimmed text is a piece of the input, with no white space at either end and only white space around it |
| Strings.TrimUnique | src/pages/Shopping.tsx:54-55 | any piece of the input with no white space at its ends and only white space around it is the trim, so trimming has one outcome |
| Strings.TrimEmpty | src/pages/Shopping.tsx:54 | the trimmed text is empty exactly when the input is all white space |
| Strings.TrimIdempotent | src/pages/SearchRecipes.tsx:76 | trimming twice is trimming once |
| Strings.AfterLast | src/pages/IngredientBank.tsx:42 | `split(".").pop()` is a suffix of the name that holds no dot and is preceded by a dot unless it is the whole name |
| Strings.AfterLastOfJoin | src/pages/IngredientBank.tsx:42 | splitting `base.ext` at the last dot gives back `ext` when `ext` has no dot |
| Strings.LessTransitive | src/pages/Shopping.tsx:103 | the string order used for sorting store names is transitive |
| Strings.LessTotal | src/pages/Shopping.tsx:103 | of two different names one sorts before the other |
| Strings.LessIrreflexive | src/pages/Shopping.tsx:103 | no name sorts before itself |
| JsValues.Get | supabase/functions/analyze-nutrition/index.ts:14 | destructuring a field throws exactly on `null` and `undefined`, and otherwise reads the field |
| JsValues.OptFirst | supabase/functions/analyze-nutrition/index.ts:100 | `?.[0]` is `undefined` on a nullish value and the first element of a non-empty array |
| JsValues.CoalesceVersusOr | src/pages/IngredientBank.tsx:70-81 | `??` keeps 0 and "" where `\|\|` replaces them; both replace `null` and `undefined` |
| Calendar.DateOf | src/pages/MealPlan.tsx:22 | every day number has a valid calendar date whose day number it is |
| Calendar.DateOfDayNumber | src/pages/MealPlan.tsx:22 | every valid date comes back from its day number: dates and day numbers correspond one to one |
| Calendar.DayNumberInjective | src/pages/MealPlan.tsx:26 | two valid dates with the same day number are equal |
| Calendar.YearOfBounded | src/pages/MealPlan.tsx:22 | a day within the `Date` range lies in a year of at most six digits |
| FullDate.DigitsRoundTrip | src/pages/MealPlan.tsx:22 | reading back a zero-padded number gives the number |
| FullDate.ParseFormat | src/pages/MealPlan.tsx:22-26 | the text `toISOString` writes for a date is read back by `new Date` as the same date |
| FullDate.KeyOf | src/pages/MealPlan.tsx:22 | a day has a text key exactly when it is within the `Date` range (otherwise RangeError) |
| FullDate.DayOfKeyOf | src/pages/MealPlan.tsx:25-28 | every representable day survives the trip through its text key |
| FullDate.KeyOfDayOf | src/pages/MealPlan.tsx:25-28 | every representable date's text survives the trip through its day number |
| Week.Weekday | src/pages/MealPlan.tsx:19 | `getDay()` is between 0 (Sunday) and 6 |
| Week.WeekStart | src/pages/MealPlan.tsx:17-23 | the week start is a Monday at most six days before the given day, so a Sunday goes back six days |
| Week.WeekStartUnique | src/pages/MealPlan.tsx:17-23 | the week start is the only Monday among the seven days ending at the given day |
| Week.WeekStartIdempotent | src/pages/MealPlan.tsx:17-23 | a week start is its own week start |
| Week.WeekdayPeriodic | src/pages/MealPlan.tsx:27 | moving by whole weeks keeps the weekday |
| Week.WeekStartAsWritten | src/pages/MealPlan.tsx:17-22 | the key the page writes is the local Monday's offset applied to the UTC day |
| Week.WeekStartAsWrittenCanBeSunday | src/pages/MealPlan.tsx:17-22 | at 00:30 on a Monday in UTC+2 the week key is a Sunday |
| Week.WeekStartAsWrittenInUtc | src/pages/MealPlan.tsx:17-22 | where local and UTC dates agree the page's key is the week start, a Monday |
| Week.WeekStartKey | src/pages/MealPlan.tsx:43 | the initial week key reads back as today's week start; it is missing only outside the `Date` range |
| Week.AddWeeks | src/pages/MealPlan.tsx:25-29 | paging gives a key exactly `7 × weeks` days later, or fails for an invalid key or a result out of range |
| Week.AddWeeksRoundTrip | src/pages/MealPlan.tsx:122-124 | paging forward then back returns to the same key |
| Week.AddWeeksKeepsMonday | src/pages/MealPlan.tsx:25-29 | paging a Monday key lands on a Monday key |
| Week.WeekRangeEnd | src/pages/MealPlan.tsx:31-34 | a valid week key has an end exactly when six days later is still within the `Date` range, and the displayed range ends six days after its start |
| Week.WeekRangeEndsOnSunday | src/pages/MealPlan.tsx:31-34 | a week shown from a Monday ends on a Sunday |
| MealGrid.DayMeals | src/pages/MealPlan.tsx:130 | the day's list holds every entry of the list for that day and nothing else |
| MealGrid.Find | src/pages/MealPlan.tsx:136 | an entry with the meal type is found exactly when the list has one, and it comes from the list |
| MealGrid.FirstInSlot | src/pages/MealPlan.tsx:136 | the position found holds an entry for the slot, and no earlier entry is for it |
| MealGrid.FindAfterFilter | src/pages/MealPlan.tsx:130-136 | filtering by day and then finding by meal type picks the first entry of the whole list for the slot |
| MealGrid.Cell | src/pages/MealPlan.tsx:129-136 | a cell is empty exactly when no entry is for its slot, and otherwise shows the earliest entry for it |
| MealGrid.Grid | src/pages/MealPlan.tsx:128-157 | the grid has seven days of three cells, Monday first and breakfast, lunch, dinner in that order |
| MealGrid.GridCellsMatch | src/pages/MealPlan.tsx:140-149 | a shown entry is from the list and for that cell's slot; an "Add" cell means the slot is free |
| MealGrid.StrayEntriesHidden | src/pages/MealPlan.tsx:129-136 | an entry with a day or meal type outside the grid's vocabulary is never shown |
| MealGrid.DuplicatesShowEarliest | src/pages/MealPlan.tsx:136 | with several entries for one slot, the one shown comes no later than any of them |
| MealGrid.OpenFromCell | src/pages/MealPlan.tsx:108-113 | the dialog opened from a cell is open for that cell's day and meal type, with no recipe chosen |
| MealGrid.OpenForRecipe | src/pages/MealPlan.tsx:49-56 | arriving with a recipe id preselects it and opens the dialog; without one nothing changes |
| MealGrid.PressAdd | src/pages/MealPlan.tsx:80-91 | a meal is inserted exactly when a recipe is chosen and a user is signed in, with the dialog's day and meal, the shown week and the user's id |
| MealGrid.FreshDialogDisabled | src/pages/MealPlan.tsx:177 | a dialog just opened from a cell cannot add anything |
| Shopping.BucketKeyMeaning | src/pages/Shopping.tsx:66 | a bucket key is never empty; a named store is its own key, and a missing store, an empty name and the name "Unassigned" share one |
| Shopping.Reduce | src/pages/Shopping.tsx:65-70 | the reduce makes no more buckets than there are items |
| Shopping.ReduceGroups | src/pages/Shopping.tsx:65-70 | the reduce gives one bucket per key, in order of first appearance, each non-empty and holding exactly the items with its key in list order, every item's key has a bucket, and nothing is lost or added |
| Shopping.FirstAtIsFirst | src/pages/Shopping.tsx:65-70 | no item before the first position of a key has that key, which is what makes the bucket order of Shopping.ReduceGroups the order of first appearance |
| Shopping.Insert | src/pages/Shopping.tsx:103 | inserting a bucket into a sorted list keeps it sorted and adds exactly that bucket |
| Shopping.SortByKey | src/pages/Shopping.tsx:103 | sorting gives a rearrangement of the buckets with keys in increasing order |
| Shopping.GroupByStore | src/pages/Shopping.tsx:64-71 | the grouped view is sorted by key, its keys are the items' store keys, each bucket holds exactly its key's items in list order, and it is a rearrangement of the list |
| Shopping.ReduceAsWritten | src/pages/Shopping.tsx:65-70 | the reduce on a plain object throws exactly when some key names an inherited property, and otherwise agrees with `Reduce` |
| Shopping.InheritedStoreNameThrows | src/pages/Shopping.tsx:66-68 | an item at a store named "constructor" makes the grouping throw, where the intended grouping shows one bucket |
| Shopping.ExactlyOneBucket | src/pages/Shopping.tsx:64-71 | each item appears in exactly one bucket: the one with its own key |
| Shopping.BucketSizesSum | src/pages/Shopping.tsx:64-71 | the bucket sizes add up to the number of items |
| Shopping.UnassignedShared | src/pages/Shopping.tsx:66 | a null store, an empty store and a store named "Unassigned" share one bucket |
| Shopping.SingleStoreKeepsOrder | src/pages/Shopping.tsx:64-71 | items that share one store form a single bucket in their original order |
| Shopping.Render | src/pages/Shopping.tsx:102-141 | flat mode lists the rows as loaded; grouped mode lists buckets sorted by store name that hold the same rows |
| Shopping.ModesShowSameItems | src/pages/Shopping.tsx:102-141 | flat mode shows the list as loaded and grouped mode a rearrangement of it |
| Shopping.AddItem | src/pages/Shopping.tsx:53-55 | an insert happens exactly when the name is not blank and a user is signed in; it carries the trimmed name and the user's id |
| Shopping.ShownQuantity | src/pages/Shopping.tsx:112 | the shown quantity is the stored one `?? 1`, so a stored 0 is shown as 0 |
| Shopping.ShownUnit | src/pages/Shopping.tsx:113 | the shown unit is the stored one `?? "pieces"`, so a stored "" is shown empty |
| ItemEditor.StoreOptions | src/components/ShoppingItem.tsx:57-62 | the store select offers "none" first and then the known stores in order |
| ItemEditor.Handle | src/components/ShoppingItem.tsx:24-63 | every event gives an action on the row's id, except a unit or store choice outside the options; only the delete button deletes, and an update names just the column the event edits; a quantity edit writes the number typed and unit option i writes the i-th listed unit |
| ItemEditor.StoreSelectValue | src/components/ShoppingItem.tsx:53 | the select shows "none" exactly for a null, empty or literally "none" store, and otherwise the store itself |
| ItemEditor.StoreColumn | src/components/ShoppingItem.tsx:53 | choosing "none" writes null and any other choice writes its text |
| ItemEditor.EditsTouchOneColumn | src/components/ShoppingItem.tsx:24-63 | every edit is an update of the row's id naming exactly one editable column; only the delete button deletes |
| ItemEditor.ToggleWritesBoolean | src/components/ShoppingItem.tsx:26 | the checkbox writes a boolean, true for "indeterminate" |
| ItemEditor.UnitFromList | src/components/ShoppingItem.tsx:43-52 | the unit select writes one of the nine listed units, namely the one at the chosen position |
| ItemEditor.StoreChoiceWrites | src/components/ShoppingItem.tsx:53-63 | the first option writes null and a store option writes that store's name |
| ItemEditor.SelectRoundTrip | src/components/ShoppingItem.tsx:53 | a chosen option is shown again after it is stored |
| ItemEditor.StoreRoundTrip | src/components/ShoppingItem.tsx:53 | a store survives display and re-selection exactly when it is neither empty nor named "none" |
| ItemEditor.StoreNamedNoneIsCleared | src/components/ShoppingItem.tsx:53-58 | a store named "none" shows as "No store", and choosing it writes null |
| ItemEditor.Apply | src/pages/Shopping.tsx:37-40 | an update sets the named columns and leaves every other column as it was |
| ItemEditor.EditKeepsName | src/pages/Shopping.tsx:37-40 | no edit changes a row's id or name |
| ItemEditor.StoreChoiceRegroups | src/components/ShoppingItem.tsx:53 | after a store choice the row's bucket is the chosen store, or "Unassigned" for "No store" |
| RecipesPage.ToDraft | src/pages/Recipes.tsx:51-55 | a draft keeps the name and takes quantity `\|\| 1` and unit `\|\| "pieces"`, so it never has quantity 0 or an empty unit |
| RecipesPage.DefaultsAreFalsyDefaults | src/pages/Recipes.tsx:53-54 | null and 0 become 1, null and "" become "pieces", other values are kept |
| RecipesPage.Expand | src/pages/Recipes.tsx:51-55 | one draft per ingredient row, in row order |
| RecipesPage.ExpandAppend | src/pages/Recipes.tsx:51-55 | expanding a concatenation expands each part |
| RecipesPage.AddRecipeToList | src/pages/Recipes.tsx:42-62 | a failed load inserts nothing; otherwise all drafts are inserted and, on success, the message counts one per ingredient row |
| IndexPage.ToDraft | src/pages/Index.tsx:44-48 | a draft keeps the name; a set, non-zero quantity and a set, non-empty unit are kept, and otherwise 1 and "pieces" are used |
| IndexPage.Expand | src/pages/Index.tsx:44-48 | one draft per row, in row order, never with quantity 0 or an empty unit |
| IndexPage.AddRecipeToList | src/pages/Index.tsx:35-55 | a failed load inserts nothing; a failed insert attempted one draft per row; success counts the rows |
| IndexPage.SameAsRecipesPage | src/pages/Index.tsx:35-55 | the home page's copy gives the same drafts and outcome as the recipes page's |
| SearchPage.SearchRequest | src/pages/SearchRecipes.tsx:74-77 | a search is sent exactly when the input is not blank, with the trimmed input |
| SearchPage.SearchIgnoresPadding | src/pages/SearchRecipes.tsx:76 | padding the input with white space sends the same search |
| SearchPage.Start | src/pages/SearchRecipes.tsx:27-40 | a sent search is pending and the results shown so far stay |
| SearchPage.Succeed | src/pages/SearchRecipes.tsx:36-38 | a null or missing `recipes` payload counts as no results |
| SearchPage.Fail | src/pages/SearchRecipes.tsx:39 | a failed search only reports the error: the results shown so far stay |
| SearchPage.IngredientCount | src/pages/SearchRecipes.tsx:119 | a card shows the length of an `ingredients` list, and also of a text, an object's own `length`, and 0 when the field is null, missing, a number or a boolean |
| SearchPage.Render | src/pages/SearchRecipes.tsx:101-143 | the spinner shows exactly while pending; cards exactly when not pending with results; "No recipes found" exactly after a finished search with none |
| SearchPage.NoResultsMessage | src/pages/SearchRecipes.tsx:141-143 | nothing shows before the first search; an empty or failed first search shows "No recipes found" |
| SearchPage.IngredientRows | src/pages/SearchRecipes.tsx:54-60 | no ingredient insert exactly when the card's count is falsy; a non-array `ingredients` with a truthy length, or a null element, throws before any insert; otherwise one row per element, as many as the card counts, with the new recipe's id and the fields as found |
| SearchPage.AddToLibrary | src/pages/SearchRecipes.tsx:42-72 | the recipe insert comes first; the ingredient insert follows exactly when the recipe was stored and the ingredient step has rows; "Added!" shows exactly when the recipe was stored and the ingredient step inserted nothing or inserted successfully, so a throwing ingredient step reports failure after the recipe is stored |
| SearchPage.TextIngredientsFailAfterStoring | src/pages/SearchRecipes.tsx:46-55 | `ingredients` given as non-empty text is counted by its characters, and adding that recipe writes the recipe row and then reports failure, with no ingredient insert |
| SearchPage.ListIngredientsStored | src/pages/SearchRecipes.tsx:54-66 | a non-empty list of ingredient objects gives both inserts, one row per ingredient, and "Added!" exactly when the ingredient insert succeeds |
| SearchPage.SourceUrlNotStored | src/pages/SearchRecipes.tsx:48 | only name, description and instructions reach the recipe insert |
| IngredientBank.IsImage | src/pages/IngredientBank.tsx:34 | a file is accepted exactly when its type is "image/" followed by anything |
| IngredientBank.StorageName | src/pages/IngredientBank.tsx:42-43 | the stored name is the fresh id, a dot, and then the photo's extension after its last dot |
| IngredientBank.Extension | src/pages/IngredientBank.tsx:42 | the extension is non-empty and dot-free: the text after the last dot, or "jpg" when that is empty |
| IngredientBank.ExtensionCases | src/pages/IngredientBank.tsx:42 | `a.png` gives "png", `a.` gives "jpg", and a dot-free name gives itself |
| IngredientBank.StorageNameKeepsExtension | src/pages/IngredientBank.tsx:42-43 | the stored object keeps the photo's extension, whatever the id |
| IngredientBank.InsertRecord | src/pages/IngredientBank.tsx:61-83 | a record is built exactly when there is a label and it has a truthy name |
| IngredientBank.RecordLabelColumns | src/pages/IngredientBank.tsx:68-83 | the record has the fourteen columns; name and image URL are copied, brand and serving size become null when empty |
| IngredientBank.RecordFigures | src/pages/IngredientBank.tsx:72-81 | each of the ten figures is the label's, or 0 when the label has none (`?? 0`) |
| IngredientBank.ZeroIsNotMissing | src/pages/IngredientBank.tsx:70-81 | a figure of 0 stays 0, a missing one becomes 0, an empty brand becomes null |
| IngredientBank.Process | src/pages/IngredientBank.tsx:56-87 | after the upload the stored photo's URL is analysed; an error ends it; a label without a name is reported unreadable with no insert; otherwise the record built from the label is inserted and a successful insert reports the label's name |
| IngredientBank.HandleFile | src/pages/IngredientBank.tsx:33-52 | a non-image makes no call; an image is uploaded under the fresh name first; a failed upload ends it; otherwise the rest is `Process` on the object's public URL |
| IngredientBank.SavedExactly | src/pages/IngredientBank.tsx:33-87 | a label is saved exactly when the file is an image, upload, analysis and insert succeed and the label has a name; the calls are then upload, analysis and insert, in that order |
| IngredientBank.UnreadableStopsAfterAnalysis | src/pages/IngredientBank.tsx:61-65 | an unreadable label ends the processing after the one analysis call |
| IngredientBank.UnreadableInsertsNothing | src/pages/IngredientBank.tsx:61-65 | an unreadable label stops after the analysis: two calls and no insert |
| AiGateway.RemoveMarker | supabase/functions/analyze-nutrition/index.ts:104 | removing every fence marker never lengthens the text |
| AiGateway.RemoveMarkerSkips | supabase/functions/analyze-nutrition/index.ts:104 | text in which no marker can start passes through unchanged |
| AiGateway.StripFences | supabase/functions/analyze-nutrition/index.ts:104 | the cleaned reply has no white space at either end and no fence (three backticks in a row) anywhere |
| AiGateway.FencePassLeavesNoFence | supabase/functions/analyze-nutrition/index.ts:104 | the global ```` ``` ```` pass leaves no fence behind: removing one never joins backticks into a new one |
| AiGateway.NoFenceWindows | supabase/functions/analyze-nutrition/index.ts:104 | a text has no fence exactly when no position of it starts with ```` ``` ```` |
| AiGateway.TrimKeepsNoFence | supabase/functions/analyze-nutrition/index.ts:104 | trimming a text without a fence leaves none |
| AiGateway.JsonPassCanRejoin | supabase/functions/analyze-nutrition/index.ts:104 | the ```` ```json ```` pass alone can leave a tag behind: removing a whole tag from inside a split one joins the halves into a new tag |
| AiGateway.PlainTightKept | supabase/functions/analyze-nutrition/index.ts:104 | a trimmed reply without a backtick comes through unchanged |
| AiGateway.NoFenceOnlyTrims | supabase/functions/analyze-nutrition/index.ts:104 | a reply without a backtick is only trimmed |
| AiGateway.JsonFencedBodyComesBack | supabase/functions/analyze-nutrition/index.ts:104 | a body in a json-tagged fenced block comes back trimmed |
| AiGateway.PlainFencedBodyComesBack | supabase/functions/search-recipes/index.ts:73 | a body in an untagged fenced block comes back trimmed |
| AiGateway.ContentOf | supabase/functions/analyze-nutrition/index.ts:100 | reading the reply throws exactly on a null body; otherwise the result is truthy when the fallback text is non-empty, and it is the reply when that is truthy (AiGateway.TruthyContentComesBack) and the fallback otherwise (AiGateway.MissingContentFallsBack) |
| AiGateway.TruthyContentComesBack | supabase/functions/analyze-nutrition/index.ts:100 | for every non-null body whose `choices?.[0]?.message?.content` is truthy, that value comes back unchanged, with extra fields, several choices or non-string content alike |
| AiGateway.ContentOfCompletion | supabase/functions/analyze-nutrition/index.ts:100 | a well-formed completion gives its content, or the fallback when the content is empty |
| AiGateway.MissingContentFallsBack | supabase/functions/search-recipes/index.ts:69 | a reply missing at any level, or falsy, gives the fallback text |
| AiGateway.Decode | supabase/functions/analyze-nutrition/index.ts:102-109 | a non-string reply or one that does not parse gives the fallback; otherwise the parsed cleaned reply |
| AnalyzeNutrition.UpstreamError | supabase/functions/analyze-nutrition/index.ts:76-97 | 429 and 402 are passed on and every other failure is a 500 |
| AnalyzeNutrition.Answer | supabase/functions/analyze-nutrition/index.ts:76-113 | 200 exactly for an ok reply with a body, and then the body is `{ nutrition }` holding the reply content (or "{}"), fence-stripped and parsed, with `{}` when it does not parse; a failed reply gets the mapped error |
| AiGateway.Handle | supabase/functions/analyze-nutrition/index.ts:13-28 | the request guard both functions share: the gateway is called exactly when the field is truthy and the key is set, and then the field is what is sent; without a call the answer is 400 exactly for a missing or falsy field, and 500 otherwise |
| AnalyzeNutrition.BadRequestExactly | supabase/functions/analyze-nutrition/index.ts:13-28 | the function calls the gateway exactly when `imageUrl` is truthy and the key is set, and answers 400 exactly when `imageUrl` is missing or falsy, whatever the gateway does |
| AnalyzeNutrition.StatusMapping | supabase/functions/analyze-nutrition/index.ts:80-96 | a failed gateway call is answered 429, 402 or 500 |
| AnalyzeNutrition.ParseFailureGivesEmpty | supabase/functions/analyze-nutrition/index.ts:102-109 | an unparsable reply is answered 200 with an empty nutrition object |
| AnalyzeNutrition.MissingContentGivesEmpty | supabase/functions/analyze-nutrition/index.ts:100-109 | no reply content is answered 200 with an empty nutrition object |
| SearchRecipesFn.Answer | supabase/functions/search-recipes/index.ts:59-82 | 200 exactly for an ok reply with a body, and then the body is `{ recipes }` holding the reply content (or "[]"), fence-stripped and parsed, with `[]` when it does not parse; every other outcome is a 500 |
| SearchRecipesFn.BadRequestExactly | supabase/functions/search-recipes/index.ts:13-28 | the function calls the gateway exactly when `query` is truthy and the key is set, and answers 400 exactly when `query` is missing or falsy, whatever the gateway does |
| SearchRecipesFn.EveryUpstreamErrorIs500 | supabase/functions/search-recipes/index.ts:59-66 | rate limits, exhausted credits and network failures are all answered 500 |
| SearchRecipesFn.ParseFailureGivesNone | supabase/functions/search-recipes/index.ts:71-78 | an unparsable reply is answered 200 with no recipes |
| SearchRecipesFn.MissingContentGivesNone | supabase/functions/search-recipes/index.ts:68-78 | no reply content is answered 200 with no recipes |

## Findings

| source | as written | input that shows it | evidently intended | confidence | as-written member | corrected member |
|---|---|---|---|---|---|---|
| src/pages/MealPlan.tsx:17-22 | the weekday is read in local time, but the key is the UTC date of the shifted moment | 00:30 on Monday 2024-01-01 in UTC+2 gives the key 2023-12-31, a Sunday | the key is the Monday of the local week | not executed; follows from `getDay` being local and `toISOString` UTC | Week.WeekStartAsWritten, Week.WeekStartAsWrittenCanBeSunday | Week.WeekStart |
| src/pages/Shopping.tsx:65-68 | the reduce collects buckets in a plain `{}`, so `acc[key]` finds inherited properties | an item whose store is named "constructor" (or "toString", "valueOf", ...) makes `acc[key].push` throw a TypeError when grouping is on | such a store gets its own bucket like any other | not executed | Shopping.ReduceAsWritten, Shopping.InheritedStoreNameThrows | Shopping.GroupByStore |

## Left out

- Time zones: outside the finding above, days are UTC days. Daylight-saving changes within a paged week are not modelled; they can shift `addWeeks` by an hour, and so by a day.
- `formatWeekRange` output: locale-dependent month and day names. Only the end date is modelled.
- `localeCompare`: locale collation cannot be stated here. Store names are sorted by code-point order, a strict total order like the collator's.
- Dates: date text other than the full-date forms `new Date` accepts is not modelled.
- Time of day: the model stays on whole days except in the finding above.
- Numbers: JavaScript numbers are reals. NaN, the infinities and floating-point rounding are not modelled.
- Quantity input: `Number(e.target.value)` parsing is not modelled. An edit carries the number already parsed.
- `JSON.parse`: it is a parameter, and so is `response.json()`, whose result is given directly.
- Backend effects: Supabase queries, inserts, updates, deletes, storage uploads and function invocations are parameters carrying their result (success or the returned data).
- Ids: `crypto.randomUUID` is a parameter.
- Queries: what the queries return and in what order (created_at ascending, meal_type) is not modelled. The lists are taken as delivered.
- Deleting: the meal, shopping-item and ingredient-bank deletes are single backend calls with no logic beyond the id they pass.
- React and UI: rendering details, react-query caching and invalidation, toasts and their texts, the `uploading` flag, the `addingIndex` button state, navigation, CORS preflight and headers, and the gateway prompts.
- Error text: `err.message` in the ingredient-bank toast.
- Unit select: showing a stored unit that is not among the nine options is not modelled.
- SearchPage.Succeed: a `recipes` value that is neither an array nor null reaches `results` unchecked in the page; the model takes the payload as an array or nothing.
- SearchPage.Render: the results are records whose fields are arbitrary values, so a `recipes` element that is not an object (a null element makes reading `recipe.name` throw while the cards render) is not modelled.
- SearchPage.IngredientCount: a string's length counts characters, where JavaScript counts UTF-16 code units; they differ only for characters outside the Basic Multilingual Plane.
- AiGateway.ContentOf: the result is promised truthy only when the fallback text is non-empty, which it is at both call sites.
- Calorie estimation: the application computes no calorie estimate, so there is nothing to model.

=== FILE: ai_gateway.dfy ===
/** What the two edge functions share around their call to the AI gateway:
    reading the model's reply out of the chat-completion body, stripping
    Markdown code fences from it, parsing it with a fallback, and the shape
    of an HTTP response. */
module AiGateway {
  import opened Wrappers
  import opened JsValues
  import opened Strings

  /** `s.replace(/marker\n?/g, '')`: every occurrence of `marker`, scanning
      left to right without overlaps, is removed together with one newline
      right after it. */
  function RemoveMarker(s: string, marker: string): (r: string)
    requires |marker| > 0
    ensures |r| <= |s|
    decreases |s|
  {
    if |s| == 0 then ""
    else if marker <= s then
      var rest := s[|marker|..];
      if |rest| > 0 && rest[0] == '\n' then RemoveMarker(rest[1..], marker) else RemoveMarker(rest, marker)
    else [s[0]] + RemoveMarker(s[1..], marker)
  }

  /** Text shorter than the marker has no occurrence of it. */
  lemma {:induction false} RemoveMarkerShort(s: string, marker: string)
    requires 0 < |marker| && |s| < |marker|
    ensures RemoveMarker(s, marker) == s
    decreases |s|
  {
    if |s| > 0 {
      RemoveMarkerShort(s[1..], marker);
      assert s == [s[0]] + s[1..];
    }
  }

  /** Text before which no occurrence can start passes through unchanged. */
  lemma {:induction false} RemoveMarkerSkips(a: string, b: string, marker: string)
    requires 0 < |marker| && marker[0] !in a
    ensures RemoveMarker(a + b, marker) == a + RemoveMarker(b, marker)
    decreases |a|
  {
    if |a| > 0 {
      var s := a + b;
      assert s[0] == a[0] && s[0] != marker[0];
      assert s[1..] == a[1..] + b;
      RemoveMarkerSkips(a[1..], b, marker);
      assert a == [a[0]] + a[1..];
    } else {
      assert a + b == b;
    }
  }

  /** An occurrence at the front goes, with the newline after it. */
  lemma RemoveMarkerFront(marker: string, b: string)
    requires 0 < |marker|
    ensures RemoveMarker(marker + "\n" + b, marker) == RemoveMarker(b, marker)
  {
    var s := marker + "\n" + b;
    assert marker <= s;
    assert s[|marker|..] == "\n" + b;
    assert ("\n" + b)[1..] == b;
  }

  const JsonFence := "```json"
  const Fence := "```"

  /** No three backticks in a row anywhere in `s`. */
  predicate NoFence(s: string) {
    forall i | 0 <= i < |s| - 2 :: !(s[i] == '`' && s[i + 1] == '`' && s[i + 2] == '`')
  }

  /** `NoFence` says no position of `s` starts a fence. */
  lemma NoFenceWindows(s: string)
    ensures NoFence(s) <==> forall i | 0 <= i < |s| :: !(Fence <= s[i..])
  {
    if NoFence(s) {
      forall i | 0 <= i < |s|
        ensures !(Fence <= s[i..])
      {
        FenceStartIff(s[i..]);
        if i < |s| - 2 {
          assert s[i..][0] == s[i] && s[i..][1] == s[i + 1] && s[i..][2] == s[i + 2];
        }
      }
    } else {
      var i :| 0 <= i < |s| - 2 && s[i] == '`' && s[i + 1] == '`' && s[i + 2] == '`';
      FenceStartIff(s[i..]);
      assert s[i..][0] == s[i] && s[i..][1] == s[i + 1] && s[i..][2] == s[i + 2];
    }
  }

  /** A text whose `k`-th character differs from the tagged fence's keeps
      its first character through the `/```json\n?/g` pass. */
  lemma JsonPassKeeps(s: string, k: nat)
    requires k < |s| && k < |JsonFence| && s[k] != JsonFence[k]
    ensures RemoveMarker(s, JsonFence) == [s[0]] + RemoveMarker(s[1..], JsonFence)
  {
    assert !(JsonFence <= s) by {
      if |s| >= |JsonFence| {
        assert s[..|JsonFence|][k] != JsonFence[k];
      }
    }
    RemoveMarkerStep(s, JsonFence);
  }

  /** One kept character in front of a text through the `/```json\n?/g`
      pass. */
  lemma JsonPassCons(c: char, t: string, k: nat)
    requires k < |JsonFence| && k <= |t| && ([c] + t)[k] != JsonFence[k]
    ensures RemoveMarker([c] + t, JsonFence) == [c] + RemoveMarker(t, JsonFence)
  {
    JsonPassKeeps([c] + t, k);
    assert ([c] + t)[1..] == t;
  }

  /** The whole tag in front of its own last three letters goes, and the
      letters stay. */
  lemma JsonPassDropsTag()
    ensures RemoveMarker(JsonFence + JsonFence[4..], JsonFence) == JsonFence[4..]
  {
    var son := JsonFence[4..];
    assert son == ['s', 'o', 'n'];
    JsonPassCons('n', [], 0);
    JsonPassCons('o', ['n'], 0);
    JsonPassCons('s', ['o', 'n'], 0);
    assert ['s'] + (['o'] + ['n']) == son;
    var tail := JsonFence + son;
    assert JsonFence <= tail && tail[|JsonFence|..] == son;
  }

  /** The `/```json\n?/g` pass on its own can leave a ````json` behind:
      removing a whole tag from the middle of a split one joins the split
      halves into a new tag. */
  lemma JsonPassCanRejoin()
    ensures RemoveMarker(JsonFence[..4] + JsonFence + JsonFence[4..], JsonFence) == JsonFence
  {
    var son := JsonFence[4..];
    var tail := JsonFence + son;
    JsonPassDropsTag();
    var s3 := ['j'] + tail;
    var s2 := ['`'] + s3;
    var s1 := ['`'] + s2;
    JsonPassCons('j', tail, 0);
    JsonPassCons('`', s3, 1);
    JsonPassCons('`', s2, 2);
    JsonPassCons('`', s1, 4);
    assert ['`'] + s1 == JsonFence[..4] + JsonFence + JsonFence[4..];
    assert ['`'] + (['`'] + (['`'] + (['j'] + son))) == JsonFence;
  }

  /** A fence starts the text exactly when its first three characters are
      backticks. */
  lemma FenceStartIff(s: string)
    ensures Fence <= s <==> |s| >= 3 && s[0] == '`' && s[1] == '`' && s[2] == '`'
  {
    if |s| >= 3 {
      assert Fence == ['`', '`', '`'];
      assert s[0] == '`' && s[1] == '`' && s[2] == '`' ==> s[..3] == Fence;
    }
  }

  /** A backtick at the front of what the fence pass keeps was at the front
      of the text. */
  lemma FencePassFirst(u: string)
    ensures var r := RemoveMarker(u, Fence);
      |r| > 0 && r[0] == '`' ==> |u| > 0 && u[0] == '`'
  {
    if Fence <= u {
      FenceStartIff(u);
    } else if |u| > 0 {
      RemoveMarkerStep(u, Fence);
    }
  }

  /** Two backticks at the front of what the fence pass keeps were at the
      front of the text. */
  lemma FencePassLead(t: string)
    ensures var r := RemoveMarker(t, Fence);
      |r| >= 2 && r[0] == '`' && r[1] == '`' ==> |t| >= 2 && t[0] == '`' && t[1] == '`'
  {
    if Fence <= t {
      FenceStartIff(t);
    } else if |t| > 0 {
      RemoveMarkerStep(t, Fence);
      FencePassFirst(t[1..]);
    }
  }

  /** The `/```\n?/g` pass leaves no fence behind: removing an occurrence
      never joins backticks into a new one. */
  lemma {:induction false} FencePassLeavesNoFence(s: string)
    ensures NoFence(RemoveMarker(s, Fence))
    decreases |s|
  {
    if Fence <= s {
      var rest := s[|Fence|..];
      if |rest| > 0 && rest[0] == '\n' {
        FencePassLeavesNoFence(rest[1..]);
      } else {
        FencePassLeavesNoFence(rest);
      }
    } else if |s| > 0 {
      var t := s[1..];
      var rt := RemoveMarker(t, Fence);
      var r := RemoveMarker(s, Fence);
      RemoveMarkerStep(s, Fence);
      assert r == [s[0]] + rt;
      FenceStartIff(s);
      FencePassLead(t);
      FencePassLeavesNoFence(t);
      forall i | 0 <= i < |r| - 2
        ensures !(r[i] == '`' && r[i + 1] == '`' && r[i + 2] == '`')
      {
        if i > 0 {
          assert r[i] == rt[i - 1] && r[i + 1] == rt[i] && r[i + 2] == rt[i + 1];
        }
      }
    }
  }

  /** A piece of a text free of fences is free of them too. */
  lemma NoFenceInside(x: string, t: string, i: int)
    requires 0 <= i && i + |t| <= |x| && NoFence(x)
    requires forall k | 0 <= k < |t| :: x[i + k] == t[k]
    ensures NoFence(t)
  {
    forall k | 0 <= k < |t| - 2
      ensures !(t[k] == '`' && t[k + 1] == '`' && t[k + 2] == '`')
    {
      assert t[k] == x[i + k] && t[k + 1] == x[i + k + 1] && t[k + 2] == x[i + k + 2];
    }
  }

  /** Trimming keeps a text free of fences. */
  lemma TrimKeepsNoFence(x: string)
    requires NoFence(x)
    ensures NoFence(Trim(x))
  {
    var t := Trim(x);
    var i :| FramedAt(x, t, i);
    FramedPositions(x, t, i);
    NoFenceInside(x, t, i);
  }

  /** The fence stripping both functions apply to the model's reply: the
      result is trimmed and holds no fence. */
  function StripFences(content: string): (r: string)
    ensures Tight(r)
    ensures NoFence(r)
  {
    var x := RemoveMarker(RemoveMarker(content, JsonFence), Fence);
    var t := Trim(x);
    TrimUnique(x, t);
    FencePassLeavesNoFence(RemoveMarker(content, JsonFence));
    TrimKeepsNoFence(x);
    t
  }

  /** A reply with no backtick is only trimmed. */
  lemma NoFenceOnlyTrims(content: string)
    requires '`' !in content
    ensures StripFences(content) == Trim(content)
  {
    RemoveMarkerSkips(content, "", JsonFence);
    RemoveMarkerSkips(content, "", Fence);
    assert content + "" == content;
  }

  /** A trimmed reply without a backtick is kept as it is. */
  lemma PlainTightKept(content: string)
    requires '`' !in content && Tight(content)
    ensures StripFences(content) == content
  {
    NoFenceOnlyTrims(content);
    TrimTight(content);
  }

  /** The second pass on a body followed by a closing fence. */
  lemma ClosingFenceGoes(body: string)
    requires '`' !in body
    ensures Trim(RemoveMarker((body + "\n") + Fence, Fence)) == Trim(body)
  {
    assert '`' !in body + "\n";
    RemoveMarkerSkips(body + "\n", Fence, Fence);
    assert RemoveMarker(Fence, Fence) == "" by {
      assert Fence <= Fence && Fence[|Fence|..] == "";
    }
    assert (body + "\n") + "" == body + "\n";
    TrimDropsTrailingSpace(body, "\n");
  }

  /** The first pass on a `json`-tagged block takes the opening fence. */
  lemma JsonFenceGoes(body: string)
    requires '`' !in body
    ensures RemoveMarker(JsonFence + "\n" + body + "\n" + Fence, JsonFence) == (body + "\n") + Fence
  {
    assert '`' !in body + "\n";
    var tail := (body + "\n") + Fence;
    assert JsonFence + "\n" + body + "\n" + Fence == JsonFence + "\n" + tail;
    RemoveMarkerFront(JsonFence, (body + "\n") + Fence);
    RemoveMarkerSkips(body + "\n", Fence, JsonFence);
    RemoveMarkerShort(Fence, JsonFence);
  }

  /** Text that does not start with the marker keeps its first character. */
  lemma RemoveMarkerStep(s: string, marker: string)
    requires 0 < |marker| && |s| > 0 && !(marker <= s)
    ensures RemoveMarker(s, marker) == [s[0]] + RemoveMarker(s[1..], marker)
  {
  }

  /** The first pass leaves an untagged block alone. */
  lemma PlainFenceStays(body: string)
    requires '`' !in body
    ensures var u := Fence + "\n" + body + "\n" + Fence;
      RemoveMarker(u, JsonFence) == u
  {
    var w := "\n" + body + "\n";
    assert '`' !in w;
    var t3 := w + Fence;
    RemoveMarkerSkips(w, Fence, JsonFence);
    RemoveMarkerShort(Fence, JsonFence);
    assert RemoveMarker(t3, JsonFence) == t3;
    var t2 := ['`'] + t3;
    assert t2[1] == '\n' && JsonFence[1] == '`';
    RemoveMarkerStep(t2, JsonFence);
    assert t2[1..] == t3;
    var t1 := ['`'] + t2;
    assert t1[2] == '\n' && JsonFence[2] == '`';
    RemoveMarkerStep(t1, JsonFence);
    assert t1[1..] == t2;
    var t0 := ['`'] + t1;
    assert t0[3] == '\n' && JsonFence[3] == 'j';
    RemoveMarkerStep(t0, JsonFence);
    assert t0[1..] == t1;
    RegroupAfterFence(Fence, "\n", body, "\n", Fence);
    FenceChars(t3);
  }

  /** Regrouping the block around its opening fence; stated over variables
      so that the solver need not see the fence's characters. */
  lemma RegroupAfterFence(a: string, b: string, c: string, d: string, e: string)
    ensures a + b + c + d + e == a + ((b + c + d) + e)
  {
  }

  /** The fence is three backticks. */
  lemma FenceChars(x: string)
    ensures Fence + x == ['`'] + (['`'] + (['`'] + x))
  {
  }

  /** A body wrapped in a `json`-tagged fenced block comes back trimmed,
      provided the body itself has no backtick. */
  lemma JsonFencedBodyComesBack(body: string)
    requires '`' !in body
    ensures StripFences(JsonFence + "\n" + body + "\n" + Fence) == Trim(body)
  {
    JsonFenceGoes(body);
    ClosingFenceGoes(body);
  }

  /** So does a body wrapped in an untagged fenced block. */
  lemma PlainFencedBodyComesBack(body: string)
    requires '`' !in body
    ensures StripFences(Fence + "\n" + body + "\n" + Fence) == Trim(body)
  {
    var u := Fence + "\n" + body + "\n" + Fence;
    PlainFenceStays(body);
    assert u == Fence + "\n" + ((body + "\n") + Fence);
    RemoveMarkerFront(Fence, (body + "\n") + Fence);
    ClosingFenceGoes(body);
  }

  /** `data.choices?.[0]?.message?.content || fallback`; None for the
      TypeError when `data` itself is null. */
  function ContentOf(data: Value, fallback: string): (r: Option<Value>)
    ensures r.None? <==> Nullish(data)
    ensures r.Some? && fallback != "" ==> Truthy(r.value)
  {
    match Get(data, "choices")
    case None => None
    case Some(choices) =>
      var content := OptGet(OptGet(OptFirst(choices), "message"), "content");
      Some(Or(content, Str(fallback)))
  }

  /** The reply content of a well-formed completion. */
  lemma ContentOfCompletion(content: string, fallback: string)
    requires fallback != ""
    ensures var msg := Obj(map["content" := Str(content)]);
      var data := Obj(map["choices" := Arr([Obj(map["message" := msg])])]);
      ContentOf(data, fallback) == Some(Str(if content != "" then content else fallback))
  {
  }

  /** A reply that is missing at any level of the body, or empty, gives the
      fallback text. */
  lemma MissingContentFallsBack(data: Value, fallback: string)
    requires !Nullish(data)
    requires !Truthy(OptGet(OptGet(OptFirst(Member(data, "choices")), "message"), "content"))
    ensures ContentOf(data, fallback) == Some(Str(fallback))
  {
  }

  /** A reply present at every level of the body and truthy comes back as
      it is, whatever else the body holds. */
  lemma TruthyContentComesBack(data: Value, fallback: string)
    requires !Nullish(data)
    requires Truthy(OptGet(OptGet(OptFirst(Member(data, "choices")), "message"), "content"))
    ensures ContentOf(data, fallback) == Some(OptGet(OptGet(OptFirst(Member(data, "choices")), "message"), "content"))
  {
  }

  /** An empty body has no reply. */
  lemma EmptyBodyFallsBack(fallback: string)
    ensures ContentOf(Obj(map[]), fallback) == Some(Str(fallback))
  {
    assert Member(Obj(map[]), "choices") == Undefined;
  }

  /** The `try { JSON.parse(cleaned) } catch { fallback }` block: a reply
      that is not a string fails at `replace` and a reply that does not parse
      fails at `JSON.parse`; both give `fallback`. */
  function Decode(content: Value, parse: string -> Option<Value>, fallback: Value): (r: Value)
    ensures !content.Str? ==> r == fallback
    ensures content.Str? && parse(StripFences(content.s)).None? ==> r == fallback
    ensures content.Str? && parse(StripFences(content.s)).Some? ==> r == parse(StripFences(content.s)).value
  {
    if content.Str? then parse(StripFences(content.s)).GetOr(fallback) else fallback
  }

  /** `response.ok` */
  predicate Ok(status: int) {
    200 <= status <= 299
  }

  /** What the gateway call gave: a network failure, or a status and the
      body as parsed JSON (None when `response.json()` fails). */
  datatype Upstream = Unreachable | Reply(status: int, body: Option<Value>)

  /** An HTTP response: the status and the JSON body. */
  datatype Response = Response(status: int, body: Value)

  function Error(status: int, message: string): Response {
    Response(status, Obj(map["error" := Str(message)]))
  }

  /** The catch-all of both functions. */
  const InternalError := Error(500, "Internal server error")

  /** The response, and the value passed on to the gateway when the gateway
      was called. */
  datatype Outcome = Outcome(response: Response, sent: Option<Value>)

  /** The request's `field` is present and truthy and the key is configured:
      the gateway gets called. */
  predicate Accepted(request: Option<Value>, field: string, apiKey: Option<string>) {
    && request.Some? && !Nullish(request.value) && Truthy(Member(request.value, field))
    && apiKey.Some? && apiKey.value != ""
  }

  /** The handler both functions run for a POST: `const { field } = await
      req.json()`, a 400 with the message `missing` for a falsy field, a 500
      without a configured key, and otherwise `answer`, the function's
      response to the gateway call. `request` is the parsed request body
      (None when it is not JSON; destructuring `null` throws). */
  function Handle(request: Option<Value>, field: string, missing: string, apiKey: Option<string>, answer: Response): (r: Outcome)
    ensures r.sent.Some? <==> Accepted(request, field, apiKey)
    ensures r.sent.Some? ==> r.sent.value == Member(request.value, field) && r.response == answer
    ensures r.sent.None? ==> (r.response.status == 400 <==>
      request.Some? && !Nullish(request.value) && !Truthy(Member(request.value, field)))
    ensures r.sent.None? ==> r.response.status in {400, 500}
  {
    match request
    case None => Outcome(InternalError, None)
    case Some(body) =>
      match Get(body, field)
      case None => Outcome(InternalError, None)
      case Some(v) =>
        if !Truthy(v) then Outcome(Error(400, missing), None)
        else if apiKey.None? || apiKey.value == "" then Outcome(Error(500, "API key not configured"), None)
        else Outcome(answer, Some(v))
  }
}

=== FILE: analyze_nutrition.dfy ===
/** The `analyze-nutrition` edge function: it takes `{ imageUrl }`, asks the
    AI gateway to read the nutrition label in the image, and answers
    `{ nutrition }` with the parsed reply, `{}` when the reply cannot be
    parsed. */
module AnalyzeNutrition {
  import opened Wrappers
  import opened JsValues
  import opened AiGateway

  /** The answer for a failed gateway call: a rate limit (429) and
      exhausted credits (402) are passed on, anything else is a 500. */
  function UpstreamError(status: int): (r: Response)
    ensures r.status == 429 <==> status == 429
    ensures r.status == 402 <==> status == 402
    ensures status != 429 && status != 402 ==> r.status == 500
  {
    if status == 429 then Error(429, "Rate limit exceeded. Please try again shortly.")
    else if status == 402 then Error(402, "Credits exhausted. Please add funds.")
    else Error(500, "AI analysis failed")
  }

  /** The answer once the gateway has been called: `upstream` is what the
      call gave and `parse` stands for `JSON.parse`. */
  function Answer(upstream: Upstream, parse: string -> Option<Value>): (r: Response)
    ensures r.status == 200 <==> upstream.Reply? && Ok(upstream.status) && upstream.body.Some? && !Nullish(upstream.body.value)
    ensures r.status == 200 ==> Keys(r.body) == {"nutrition"}
    ensures r.status == 200 ==> (ContentOf(upstream.body.value, "{}").Some?
      && r.body == Obj(map["nutrition" := Decode(ContentOf(upstream.body.value, "{}").value, parse, Obj(map[]))]))
    ensures upstream.Reply? && !Ok(upstream.status) ==> r == UpstreamError(upstream.status)
    ensures r.status in {200, 402, 429, 500}
  {
    match upstream
    case Unreachable => InternalError
    case Reply(status, data) =>
      if !Ok(status) then UpstreamError(status)
      else match data
        case None => InternalError
        case Some(d) =>
          match ContentOf(d, "{}")
          case None => InternalError
          case Some(content) => Response(200, Obj(map["nutrition" := Decode(content, parse, Obj(map[]))]))
  }

  /** The function as a whole: the gateway is called with the request's
      `imageUrl` exactly when it is truthy and the key is configured, and a
      400 means exactly that `imageUrl` was missing or falsy. */
  lemma BadRequestExactly(request: Option<Value>, apiKey: Option<string>, upstream: Upstream, parse: string -> Option<Value>)
    ensures var r := Handle(request, "imageUrl", "imageUrl is required", apiKey, Answer(upstream, parse));
      && (r.sent.Some? <==> Accepted(request, "imageUrl", apiKey))
      && (r.response.status == 400 <==>
           request.Some? && !Nullish(request.value) && !Truthy(Member(request.value, "imageUrl")))
  {
  }

  /** A failed gateway call is answered 429, 402 or 500. */
  lemma StatusMapping(status: int, data: Option<Value>, parse: string -> Option<Value>)
    requires !Ok(status)
    ensures Answer(Reply(status, data), parse).status == (if status == 429 || status == 402 then status else 500)
  {
  }

  /** A reply that does not parse is answered 200 with an empty nutrition
      object, not with an error. */
  lemma ParseFailureGivesEmpty(status: int, data: Value, parse: string -> Option<Value>, content: string)
    requires Ok(status) && ContentOf(data, "{}") == Some(Str(content)) && parse(StripFences(content)).None?
    ensures Answer(Reply(status, Some(data)), parse) == Response(200, Obj(map["nutrition" := Obj(map[])]))
  {
  }

  /** With no reply content the function parses "{}": the answer is an
      empty nutrition object whenever `JSON.parse("{}")` is `{}`. */
  lemma MissingContentGivesEmpty(status: int, parse: string -> Option<Value>)
    requires Ok(status) && parse("{}") == Some(Obj(map[]))
    ensures Answer(Reply(status, Some(Obj(map[]))), parse) == Response(200, Obj(map["nutrition" := Obj(map[])]))
  {
    var text := "{}";
    assert '`' !in text && Strings.Tight(text);
    PlainTightKept(text);
    EmptyBodyFallsBack(text);
    assert Decode(Str(text), parse, Obj(map[])) == Obj(map[]);
  }
}

=== FILE: calendar.dfy ===
/** The proleptic Gregorian calendar of JavaScript's `Date`, as a bijection
    between valid calendar dates and day numbers, where day 0 is 1970-01-01
    (ECMA-262 section 21.4.1, with the time of day left out). */
module Calendar {

  predicate IsLeap(y: int) {
    y % 4 == 0 && (y % 100 != 0 || y % 400 == 0)
  }

  function DaysInYear(y: int): int {
    if IsLeap(y) then 366 else 365
  }

  function DaysInMonth(y: int, m: int): int
    requires 1 <= m <= 12
  {
    if m == 2 then (if IsLeap(y) then 29 else 28)
    else if m == 4 || m == 6 || m == 9 || m == 11 then 30
    else 31
  }

  /** Days of year `y` before the first of month `m`; month 13 stands for the
      end of the year. */
  function DaysBeforeMonth(y: int, m: int): (r: int)
    requires 1 <= m <= 13
    ensures 0 <= r
  {
    if m == 1 then 0 else DaysBeforeMonth(y, m - 1) + DaysInMonth(y, m - 1)
  }

  /** The twelve months add up to the year: the first of each month falls on
      day 0, 31, 59, 90, ... of the year, one later from March on in a leap
      year. */
  lemma MonthsFillYear(y: int)
    ensures DaysBeforeMonth(y, 13) == DaysInYear(y)
  {
    var leap := if IsLeap(y) then 1 else 0;
    assert DaysBeforeMonth(y, 2) == 31;
    assert DaysBeforeMonth(y, 3) == 59 + leap;
    assert DaysBeforeMonth(y, 4) == 90 + leap;
    assert DaysBeforeMonth(y, 5) == 120 + leap;
    assert DaysBeforeMonth(y, 6) == 151 + leap;
    assert DaysBeforeMonth(y, 7) == 181 + leap;
    assert DaysBeforeMonth(y, 8) == 212 + leap;
    assert DaysBeforeMonth(y, 9) == 243 + leap;
    assert DaysBeforeMonth(y, 10) == 273 + leap;
    assert DaysBeforeMonth(y, 11) == 304 + leap;
    assert DaysBeforeMonth(y, 12) == 334 + leap;
  }

  /** Month `m` runs from `DaysBeforeMonth(y, m)` up to the next month's
      start, and the last month ends with the year. */
  lemma MonthStep(y: int, m: int)
    requires 1 <= m <= 12
    ensures DaysBeforeMonth(y, m + 1) == DaysBeforeMonth(y, m) + DaysInMonth(y, m)
    ensures DaysBeforeMonth(y, 13) == DaysInYear(y)
  {
    MonthsFillYear(y);
  }

  datatype Date = Date(year: int, month: int, day: int)

  predicate Valid(d: Date) {
    1 <= d.month <= 12 && 1 <= d.day <= DaysInMonth(d.year, d.month)
  }

  /** Day number of the first of January of year `y`. */
  function YearStart(y: int): int
    decreases if y < 1970 then 1970 - y else y - 1970
  {
    if y == 1970 then 0
    else if y > 1970 then YearStart(y - 1) + DaysInYear(y - 1)
    else YearStart(y + 1) - DaysInYear(y)
  }

  lemma YearStartStep(y: int)
    ensures YearStart(y + 1) == YearStart(y) + DaysInYear(y)
  {
  }

  /** Later years start later. */
  lemma {:induction false} YearStartMonotone(a: int, b: int)
    requires a < b
    ensures YearStart(a + 1) <= YearStart(b)
    decreases b - a
  {
    if a + 1 < b {
      YearStartMonotone(a, b - 1);
      YearStartStep(b - 1);
    }
  }

  /** At most one year holds a given day. */
  lemma YearUnique(a: int, b: int, n: int)
    requires YearStart(a) <= n < YearStart(a + 1)
    requires YearStart(b) <= n < YearStart(b + 1)
    ensures a == b
  {
    if a < b {
      YearStartMonotone(a, b);
    } else if b < a {
      YearStartMonotone(b, a);
    }
  }

  /** The day number of a valid date. */
  function DayNumber(d: Date): int
    requires Valid(d)
  {
    YearStart(d.year) + DaysBeforeMonth(d.year, d.month) + d.day - 1
  }

  /** The year holding day `n`, searching downwards from `y`. */
  function YearDown(y: int, n: int): (r: int)
    requires n < YearStart(y + 1)
    ensures YearStart(r) <= n < YearStart(r + 1)
    decreases YearStart(y) - n
  {
    YearStartStep(y - 1);
    if YearStart(y) <= n then y else YearDown(y - 1, n)
  }

  /** The year holding day `n`, searching upwards from `y`. */
  function YearUp(y: int, n: int): (r: int)
    requires YearStart(y) <= n
    ensures YearStart(r) <= n < YearStart(r + 1)
    decreases n - YearStart(y)
  {
    YearStartStep(y);
    if n < YearStart(y + 1) then y else YearUp(y + 1, n)
  }

  /** The year holding day `n`. */
  function YearOf(n: int): (r: int)
    ensures YearStart(r) <= n < YearStart(r + 1)
  {
    if n < 0 then YearDown(1969, n) else YearUp(1970, n)
  }

  /** The month of year `y` holding day `k` of that year, searching from `m`. */
  function MonthFrom(y: int, m: int, k: int): (r: int)
    requires 1 <= m <= 12 && DaysBeforeMonth(y, m) <= k < DaysInYear(y)
    ensures m <= r <= 12 && DaysBeforeMonth(y, r) <= k < DaysBeforeMonth(y, r + 1)
    decreases 12 - m
  {
    MonthStep(y, m);
    if k < DaysBeforeMonth(y, m + 1) then m else MonthFrom(y, m + 1, k)
  }

  /** The calendar date of day `n`; it is the one valid date whose day
      number is `n`. */
  function DateOf(n: int): (d: Date)
    ensures Valid(d) && DayNumber(d) == n
    ensures d.year == YearOf(n)
  {
    var y := YearOf(n);
    YearStartStep(y);
    var k := n - YearStart(y);
    var m := MonthFrom(y, 1, k);
    MonthStep(y, m);
    Date(y, m, k - DaysBeforeMonth(y, m) + 1)
  }

  /** A later month starts no earlier than the end of an earlier one. */
  lemma {:induction false} MonthsIncrease(y: int, a: int, b: int)
    requires 1 <= a < b <= 13
    ensures DaysBeforeMonth(y, a + 1) <= DaysBeforeMonth(y, b)
    decreases b - a
  {
    if a + 1 < b {
      MonthsIncrease(y, a, b - 1);
    }
  }

  /** Every valid date comes back from its day number: with `DateOf`'s own
      contract, day numbers and valid dates are in one-to-one correspondence. */
  lemma DateOfDayNumber(d: Date)
    requires Valid(d)
    ensures DateOf(DayNumber(d)) == d
  {
    var n := DayNumber(d);
    var e := DateOf(n);
    var y := d.year;
    DayInItsYear(d);
    YearUnique(y, e.year, n);
    MonthStep(y, d.month);
    var k := n - YearStart(y);
    assert DaysBeforeMonth(y, d.month) <= k < DaysBeforeMonth(y, d.month + 1);
    MonthStep(y, e.month);
    assert DaysBeforeMonth(y, e.month) + e.day - 1 == k;
    MonthUnique(y, d.month, e.month, k);
    assert e.day == d.day;
  }

  /** A valid date's day number falls within its year. */
  lemma DayInItsYear(d: Date)
    requires Valid(d)
    ensures YearStart(d.year) <= DayNumber(d) < YearStart(d.year + 1)
  {
    YearStartStep(d.year);
    MonthStep(d.year, d.month);
    MonthsIncrease(d.year, d.month, 13);
  }

  /** At most one month of a year holds a given day of that year. */
  lemma MonthUnique(y: int, a: int, b: int, k: int)
    requires 1 <= a <= 12 && 1 <= b <= 12
    requires DaysBeforeMonth(y, a) <= k < DaysBeforeMonth(y, a + 1)
    requires DaysBeforeMonth(y, b) <= k < DaysBeforeMonth(y, b + 1)
    ensures a == b
  {
    if a < b {
      MonthsIncrease(y, a, b);
    } else if b < a {
      MonthsIncrease(y, b, a);
    }
  }

  /** Two valid dates with the same day number are the same date. */
  lemma DayNumberInjective(a: Date, b: Date)
    requires Valid(a) && Valid(b) && DayNumber(a) == DayNumber(b)
    ensures a == b
  {
    DateOfDayNumber(a);
    DateOfDayNumber(b);
  }

  lemma {:induction false} YearStartAbove(y: int)
    requires y >= 1970
    ensures YearStart(y) >= 365 * (y - 1970)
    decreases y - 1970
  {
    if y > 1970 {
      YearStartAbove(y - 1);
    }
  }

  lemma {:induction false} YearStartBelow(y: int)
    requires y <= 1970
    ensures YearStart(y) <= 365 * (y - 1970)
    decreases 1970 - y
  {
    if y < 1970 {
      YearStartBelow(y + 1);
    }
  }

  /** Within a hundred million days of 1970 every year has at most six digits. */
  lemma YearOfBounded(n: int)
    requires -100000000 <= n <= 100000000
    ensures -300000 <= YearOf(n) <= 300000
  {
    var y := YearOf(n);
    if y >= 1970 {
      YearStartAbove(y);
    } else {
      YearStartBelow(y + 1);
    }
  }
}

=== FILE: full_date.dfy ===
/** The `full-date` text of section 5.6 of RFC 3339 (`YYYY-MM-DD`), as
    `Date.prototype.toISOString` writes the date part and `new Date(text)`
    reads a date-only string, including the expanded years `+YYYYYY` and
    `-YYYYYY` ECMAScript uses outside 0..9999 (ECMA-262 sections 21.4.1.32
    and 21.4.1.32.2). */
module FullDate {
  import opened Wrappers
  import opened Calendar

  function Pow10(w: nat): (p: nat)
    ensures p >= 1
  {
    if w == 0 then 1 else 10 * Pow10(w - 1)
  }

  lemma Pow10Values()
    ensures Pow10(2) == 100 && Pow10(4) == 10000 && Pow10(6) == 1000000
  {
    assert Pow10(1) == 10;
    assert Pow10(3) == 1000;
    assert Pow10(5) == 100000;
  }

  predicate IsDigit(c: char) {
    '0' <= c <= '9'
  }

  function DigitChar(d: int): (c: char)
    requires 0 <= d < 10
    ensures IsDigit(c) && c as int - '0' as int == d
  {
    ('0' as int + d) as char
  }

  /** `n` written with exactly `width` decimal digits, zero-padded on the left. */
  function Digits(n: nat, width: nat): (s: string)
    requires n < Pow10(width)
    ensures |s| == width
    ensures forall i | 0 <= i < |s| :: IsDigit(s[i])
    decreases width
  {
    if width == 0 then "" else Digits(n / 10, width - 1) + [DigitChar(n % 10)]
  }

  /** The number a string of decimal digits denotes; None when a character is
      not a digit. */
  function DigitsValue(s: string): (r: Option<nat>)
    ensures r.Some? ==> r.value < Pow10(|s|)
    ensures r.Some? <==> forall i | 0 <= i < |s| :: IsDigit(s[i])
  {
    if |s| == 0 then Some(0)
    else
      var last := s[|s| - 1];
      assert forall i | 0 <= i < |s| - 1 :: s[..|s| - 1][i] == s[i];
      match DigitsValue(s[..|s| - 1])
      case None => None
      case Some(v) => if IsDigit(last) then Some(10 * v + (last as int - '0' as int)) else None
  }

  /** Reading back what `Digits` wrote gives the number again. */
  lemma {:induction false} DigitsRoundTrip(n: nat, width: nat)
    requires n < Pow10(width)
    ensures DigitsValue(Digits(n, width)) == Some(n)
    decreases width
  {
    if width > 0 {
      var s := Digits(n, width);
      assert s[..|s| - 1] == Digits(n / 10, width - 1);
      DigitsRoundTrip(n / 10, width - 1);
    }
  }

  predicate YearInRange(y: int) {
    -999999 <= y <= 999999
  }

  /** The year field: four digits for 0..9999, otherwise a sign and six digits. */
  function YearText(y: int): (s: string)
    requires YearInRange(y)
  {
    Pow10Values();
    if 0 <= y <= 9999 then Digits(y, 4)
    else if y < 0 then "-" + Digits(-y, 6)
    else "+" + Digits(y, 6)
  }

  /** `YYYY-MM-DD` (or `±YYYYYY-MM-DD`) for a valid date. */
  function Format(d: Date): (s: string)
    requires Valid(d) && YearInRange(d.year)
  {
    Pow10Values();
    YearText(d.year) + "-" + Digits(d.month, 2) + "-" + Digits(d.day, 2)
  }

  /** Month and day fields of year `y`, checked against the calendar. */
  function DateFrom(y: int, mm: string, dd: string): (r: Option<Date>)
    ensures r.Some? ==> Valid(r.value) && r.value.year == y
  {
    match (DigitsValue(mm), DigitsValue(dd))
    case (Some(m), Some(d)) => if Valid(Date(y, m, d)) then Some(Date(y, m, d)) else None
    case _ => None
  }

  /** A date-only string read the way `new Date(text)` reads one in the
      standard's format: None when the text is not a valid date in that form
      (the year `-000000` is not). */
  function Parse(s: string): (r: Option<Date>)
    ensures r.Some? ==> Valid(r.value) && YearInRange(r.value.year)
  {
    Pow10Values();
    if |s| == 10 && s[4] == '-' && s[7] == '-' then
      match DigitsValue(s[..4])
      case None => None
      case Some(y) => DateFrom(y, s[5..7], s[8..10])
    else if |s| == 13 && (s[0] == '+' || s[0] == '-') && s[7] == '-' && s[10] == '-' then
      match DigitsValue(s[1..7])
      case None => None
      case Some(v) =>
        if s[0] == '-' && v == 0 then None
        else
          var y: int := if s[0] == '-' then -(v as int) else v;
          DateFrom(y, s[8..10], s[11..13])
    else None
  }

  /** The month and day fields `Format` writes are read back as the date. */
  lemma DateFromDigits(d: Date)
    requires Valid(d)
    ensures d.month < Pow10(2) && d.day < Pow10(2)
    ensures DateFrom(d.year, Digits(d.month, 2), Digits(d.day, 2)) == Some(d)
  {
    Pow10Values();
    DigitsRoundTrip(d.month, 2);
    DigitsRoundTrip(d.day, 2);
  }

  /** A four-digit year and the two fields after it parse as the date. */
  lemma ParseFour(d: Date)
    requires Valid(d) && 0 <= d.year <= 9999
    ensures d.year < Pow10(4) && d.month < Pow10(2) && d.day < Pow10(2)
    ensures Parse(Digits(d.year, 4) + "-" + Digits(d.month, 2) + "-" + Digits(d.day, 2)) == Some(d)
  {
    Pow10Values();
    var yy, mm, dd := Digits(d.year, 4), Digits(d.month, 2), Digits(d.day, 2);
    var s := yy + "-" + mm + "-" + dd;
    DigitsRoundTrip(d.year, 4);
    DateFromDigits(d);
    assert s[..4] == yy && s[5..7] == mm && s[8..10] == dd;
    assert DigitsValue(s[..4]) == Some(d.year);
  }

  /** A signed six-digit year and the two fields after it parse as the date. */
  lemma ParseSix(d: Date, sign: char)
    requires Valid(d) && YearInRange(d.year) && !(0 <= d.year <= 9999)
    requires sign == (if d.year < 0 then '-' else '+')
    ensures var v := if d.year < 0 then -d.year else d.year;
      v < Pow10(6) && d.month < Pow10(2) && d.day < Pow10(2)
      && Parse([sign] + Digits(v, 6) + "-" + Digits(d.month, 2) + "-" + Digits(d.day, 2)) == Some(d)
  {
    Pow10Values();
    var v := if d.year < 0 then -d.year else d.year;
    var yy, mm, dd := Digits(v, 6), Digits(d.month, 2), Digits(d.day, 2);
    var s := [sign] + yy + "-" + mm + "-" + dd;
    DigitsRoundTrip(v, 6);
    DateFromDigits(d);
    assert s[1..7] == yy && s[8..10] == mm && s[11..13] == dd;
    assert DigitsValue(s[1..7]) == Some(v);
  }

  /** Parsing what `Format` wrote gives the date back. */
  lemma ParseFormat(d: Date)
    requires Valid(d) && YearInRange(d.year)
    ensures Parse(Format(d)) == Some(d)
  {
    Pow10Values();
    if 0 <= d.year <= 9999 {
      ParseFour(d);
    } else {
      var sign := if d.year < 0 then '-' else '+';
      ParseSix(d, sign);
      var v := if d.year < 0 then -d.year else d.year;
      assert YearText(d.year) == [sign] + Digits(v, 6);
    }
  }

  /** Greatest distance from 1970-01-01, in days, of a moment a JavaScript
      `Date` can hold: 8.64e15 milliseconds (ECMA-262 section 21.4.1.1). */
  const MaxDays := 100000000

  predicate InRange(n: int) {
    -MaxDays <= n <= MaxDays
  }

  /** `toISOString().split("T")[0]` of the `Date` at day `n`; None stands for
      the RangeError thrown outside the representable range. */
  function KeyOf(n: int): (r: Option<string>)
    ensures r.Some? <==> InRange(n)
  {
    if InRange(n) then
      YearOfBounded(n);
      Some(Format(DateOf(n)))
    else None
  }

  /** `new Date(s)` for a date-only string, as a day number: None stands for
      an invalid date, whether the text is malformed or out of range. */
  function DayOf(s: string): (r: Option<int>)
    ensures r.Some? ==> InRange(r.value)
  {
    match Parse(s)
    case None => None
    case Some(d) => if InRange(DayNumber(d)) then Some(DayNumber(d)) else None
  }

  /** Every representable day survives the trip through its text key. */
  lemma DayOfKeyOf(n: int)
    requires InRange(n)
    ensures KeyOf(n).Some? && DayOf(KeyOf(n).value) == Some(n)
  {
    YearOfBounded(n);
    ParseFormat(DateOf(n));
  }

  /** Every representable date's text survives the trip through its day
      number, so keys and days are in one-to-one correspondence. */
  lemma KeyOfDayOf(d: Date)
    requires Valid(d) && YearInRange(d.year) && InRange(DayNumber(d))
    ensures DayOf(Format(d)) == Some(DayNumber(d))
    ensures KeyOf(DayNumber(d)) == Some(Format(d))
  {
    ParseFormat(d);
    DateOfDayNumber(d);
  }
}

=== FILE: index_page.dfy ===
/** The home page's own copy of "Add to shopping list". It is written out
    again here, as the page does, and shown to be the recipes page's
    function. */
module IndexPage {
  import opened Wrappers
  import RecipesPage

  /** The home page's own `ingredients.map(...)`: a set, non-zero quantity
      and a set, non-empty unit are kept, and the others fall back to 1 and
      "pieces". */
  function ToDraft(ing: RecipesPage.IngredientRow): (d: RecipesPage.Draft)
    ensures d.ingredientName == ing.ingredientName
    ensures ing.defaultQuantity.Some? && ing.defaultQuantity.value != 0.0 ==> d.quantity == ing.defaultQuantity.value
    ensures ing.defaultQuantity.None? || ing.defaultQuantity == Some(0.0) ==> d.quantity == 1.0
    ensures ing.defaultUnit.Some? && ing.defaultUnit.value != "" ==> d.unit == ing.defaultUnit.value
    ensures ing.defaultUnit.None? || ing.defaultUnit == Some("") ==> d.unit == "pieces"
  {
    RecipesPage.Draft(
      ing.ingredientName,
      match ing.defaultQuantity case Some(n) => (if n != 0.0 then n else 1.0) case None => 1.0,
      match ing.defaultUnit case Some(s) => (if s != "" then s else "pieces") case None => "pieces")
  }

  /** One draft per row, in row order, each named after its row and never
      with a quantity of 0 or an empty unit. */
  function Expand(rows: seq<RecipesPage.IngredientRow>): (r: seq<RecipesPage.Draft>)
    ensures |r| == |rows|
    ensures forall i | 0 <= i < |rows| ::
      r[i].ingredientName == rows[i].ingredientName && r[i].quantity != 0.0 && r[i].unit != ""
  {
    seq(|rows|, i requires 0 <= i < |rows| => ToDraft(rows[i]))
  }

  /** The home page's `addRecipeToList`: a failed load stops before any
      insert; otherwise every row's draft is inserted, and success counts
      the rows. */
  function AddRecipeToList(load: Option<seq<RecipesPage.IngredientRow>>, insertOk: bool): (r: RecipesPage.Outcome)
    ensures r.LoadFailed? <==> load.None?
    ensures r.InsertFailed? <==> load.Some? && !insertOk
    ensures r.InsertFailed? ==> |r.attempted| == |load.value|
    ensures r.Added? ==> |r.inserted| == r.count == |load.value|
  {
    if load.None? then RecipesPage.LoadFailed
    else if !insertOk then RecipesPage.InsertFailed(Expand(load.value))
    else RecipesPage.Added(Expand(load.value), |load.value|)
  }

  /** The home page's expansion is the recipes page's, row by row and as a
      whole, and so is its outcome for every load result and insert result. */
  lemma SameAsRecipesPage(rows: seq<RecipesPage.IngredientRow>, load: Option<seq<RecipesPage.IngredientRow>>, insertOk: bool)
    ensures forall i | 0 <= i < |rows| :: ToDraft(rows[i]) == RecipesPage.ToDraft(rows[i])
    ensures Expand(rows) == RecipesPage.Expand(rows)
    ensures AddRecipeToList(load, insertOk) == RecipesPage.AddRecipeToList(load, insertOk)
  {
  }
}

=== FILE: ingredient_bank.dfy ===
/** The ingredient bank's photo intake: only images are accepted, the photo
    is stored under a fresh name that keeps its extension, the label is read
    by the nutrition function, and a readable label becomes one
    `ingredient_bank` record with defaults for what the label lacks. */
module IngredientBank {
  import opened Wrappers
  import opened JsValues
  import opened Strings

  /** `file.type.startsWith("image/")`: the type is "image/" followed by
      anything. */
  predicate IsImage(mime: string): (b: bool)
    ensures b <==> exists rest: string :: mime == "image/" + rest
  {
    if "image/" <= mime then
      assert mime == "image/" + mime[6..];
      true
    else false
  }

  /** `file.name.split(".").pop() || "jpg"`: the text after the last dot,
      the whole name when there is no dot, and "jpg" when that is empty. */
  function Extension(name: string): (ext: string)
    ensures ext != "" && '.' !in ext
    ensures AfterLast(name, '.') != "" ==> ext == AfterLast(name, '.')
    ensures AfterLast(name, '.') == "" ==> ext == "jpg"
  {
    var last := AfterLast(name, '.');
    if last != "" then last else "jpg"
  }

  /** What the extension rule gives on the typical shapes of name. */
  lemma ExtensionCases(base: string, ext: string)
    requires '.' !in ext
    ensures ext != "" ==> Extension(base + "." + ext) == ext
    ensures Extension(base + ".") == "jpg"
    ensures '.' !in base && base != "" ==> Extension(base) == base
  {
    AfterLastOfJoin(base, '.', ext);
    AfterLastOfJoin(base, '.', "");
    assert base + "." == base + ['.'] + "";
    if '.' !in base {
      assert forall k | 0 <= k < |base| :: base[k] != '.';
    }
  }

  /** `${crypto.randomUUID()}.${ext}`: the storage object name; the id is a
      parameter. The name starts with the id and a dot, and what follows its
      last dot is the photo's extension. */
  function StorageName(uuid: string, name: string): (r: string)
    ensures |r| > |uuid| && r[..|uuid|] == uuid && r[|uuid|] == '.'
    ensures AfterLast(r, '.') == Extension(name)
  {
    var r := uuid + "." + Extension(name);
    assert r == uuid + ['.'] + Extension(name);
    AfterLastOfJoin(uuid, '.', Extension(name));
    r
  }

  /** The stored object keeps the photo's extension, whatever the id. */
  lemma StorageNameKeepsExtension(uuid: string, name: string)
    ensures AfterLast(StorageName(uuid, name), '.') == Extension(name)
    ensures Extension(StorageName(uuid, name)) == Extension(name)
  {
    assert StorageName(uuid, name) == uuid + ['.'] + Extension(name);
    AfterLastOfJoin(uuid, '.', Extension(name));
  }

  /** The ten label figures, copied with `?? 0`. */
  const NumericFields: set<string> := {"calories", "total_fat", "saturated_fat", "trans_fat",
    "cholesterol", "sodium", "total_carbs", "dietary_fiber", "total_sugars", "protein"}

  /** The columns of an `ingredient_bank` insert. */
  const RecordFields: set<string> := NumericFields + {"name", "brand", "serving_size", "image_url"}

  /** `!nutrition || !nutrition.name` fails: there is a value and it has a
      name. */
  predicate Readable(nutrition: Value) {
    Truthy(nutrition) && Truthy(Member(nutrition, "name"))
  }

  /** The ten figures of a label, each `?? 0`. */
  function Figures(nutrition: Value): (m: map<string, Value>)
    ensures m.Keys == NumericFields
    ensures forall f | f in NumericFields :: m[f] == Coalesce(Member(nutrition, f), Num(0.0))
  {
    map f | f in NumericFields :: Coalesce(Member(nutrition, f), Num(0.0))
  }

  lemma LabelColumnsAreNotFigures()
    ensures forall f | f in NumericFields :: f != "name" && f != "brand" && f != "serving_size" && f != "image_url"
  {
  }

  /** The four columns that do not come from the figures. */
  function LabelColumns(nutrition: Value, imageUrl: string): (m: map<string, Value>)
    ensures m.Keys == {"name", "brand", "serving_size", "image_url"}
  {
    map[
      "name" := Member(nutrition, "name"),
      "brand" := Or(Member(nutrition, "brand"), Null),
      "serving_size" := Or(Member(nutrition, "serving_size"), Null),
      "image_url" := Str(imageUrl)]
  }

  /** The record built from the function's `nutrition` value; None when the
      label is not readable, in which case nothing is inserted. */
  function InsertRecord(nutrition: Value, imageUrl: string): (r: Option<map<string, Value>>)
    ensures r.None? <==> !Readable(nutrition)
  {
    if !Readable(nutrition) then None
    else Some(Figures(nutrition) + LabelColumns(nutrition, imageUrl))
  }

  /** The record has the fourteen columns; the name and the photo's URL are
      copied, and the brand and serving size are null when empty. */
  lemma RecordLabelColumns(nutrition: Value, imageUrl: string)
    requires Readable(nutrition)
    ensures var r := InsertRecord(nutrition, imageUrl).value;
      && r.Keys == RecordFields
      && r["name"] == Member(nutrition, "name") && r["image_url"] == Str(imageUrl)
      && (forall f | f in {"brand", "serving_size"} ::
           r[f] == (if Truthy(Member(nutrition, f)) then Member(nutrition, f) else Null))
  {
    var labels := LabelColumns(nutrition, imageUrl);
    assert InsertRecord(nutrition, imageUrl).value == Figures(nutrition) + labels;
  }

  /** Each figure of the record is the label's, or 0 when the label lacks
      it: a figure of 0 stays 0. */
  lemma RecordFigures(nutrition: Value, imageUrl: string)
    requires Readable(nutrition)
    ensures var r := InsertRecord(nutrition, imageUrl).value;
      forall f | f in NumericFields ::
        r[f] == (if Nullish(Member(nutrition, f)) then Num(0.0) else Member(nutrition, f))
  {
    var figures := Figures(nutrition);
    var labels := LabelColumns(nutrition, imageUrl);
    assert InsertRecord(nutrition, imageUrl).value == figures + labels;
    LabelColumnsAreNotFigures();
    forall f | f in NumericFields
      ensures (figures + labels)[f] == figures[f]
    {
      assert f !in labels;
    }
  }

  /** A label figure of 0 is kept as 0, a missing one becomes 0, while an
      empty brand becomes null. */
  lemma ZeroIsNotMissing(imageUrl: string)
    ensures var n := Obj(map["name" := Str("Oats"), "calories" := Num(0.0), "brand" := Str("")]);
      var r := InsertRecord(n, imageUrl).value;
      r["calories"] == Num(0.0) && r["protein"] == Num(0.0) && r["brand"] == Null
  {
    var n := Obj(map["name" := Str("Oats"), "calories" := Num(0.0), "brand" := Str("")]);
    RecordLabelColumns(n, imageUrl);
    RecordFigures(n, imageUrl);
  }

  /** The backend calls `handleFile` makes, in order. */
  datatype Call = Upload(fileName: string) | Analyze(imageUrl: string) | Insert(record: map<string, Value>)

  /** How `handleFile` ends. */
  datatype Outcome = NotAnImage | Failed | Unreadable | Saved(name: Value)

  /** What `handleFile` does once the photo is stored at `imageUrl`: ask the
      nutrition function to read it (`analysis` is its response body, None
      for an error) and insert a readable label (`insertOk` says whether the
      insert succeeded). */
  function Process(imageUrl: string, analysis: Option<Value>, insertOk: bool): (r: (seq<Call>, Outcome))
    ensures 1 <= |r.0| <= 2 && r.0[0] == Analyze(imageUrl) && r.1 != NotAnImage
    ensures r.1 == Unreadable <==> analysis.Some? && !Readable(OptGet(analysis.value, "nutrition"))
    ensures |r.0| == 2 <==> analysis.Some? && Readable(OptGet(analysis.value, "nutrition"))
    ensures |r.0| == 2 ==> r.0[1] == Insert(InsertRecord(OptGet(analysis.value, "nutrition"), imageUrl).value)
    ensures r.1.Saved? <==> |r.0| == 2 && insertOk
    ensures r.1.Saved? ==> r.1.name == Member(OptGet(analysis.value, "nutrition"), "name")
  {
    match analysis
    case None => ([Analyze(imageUrl)], Failed)
    case Some(result) =>
      match InsertRecord(OptGet(result, "nutrition"), imageUrl)
      case None => ([Analyze(imageUrl)], Unreadable)
      case Some(record) => ([Analyze(imageUrl), Insert(record)], if insertOk then Saved(record["name"]) else Failed)
  }

  /** `handleFile`. The environment is given as parameters: the fresh id,
      whether the upload succeeded, the public URL of a stored object, the
      nutrition function's response body (None for an error), and whether
      the insert succeeded. */
  function HandleFile(
    mime: string, name: string, uuid: string, uploadOk: bool, publicUrl: string -> string,
    analysis: Option<Value>, insertOk: bool): (r: (seq<Call>, Outcome))
    ensures r.1 == NotAnImage <==> !IsImage(mime)
    ensures r.1 == NotAnImage ==> r.0 == []
    ensures IsImage(mime) ==> |r.0| >= 1 && r.0[0] == Upload(StorageName(uuid, name))
    ensures IsImage(mime) && !uploadOk ==> r == ([Upload(StorageName(uuid, name))], Failed)
    ensures IsImage(mime) && uploadOk ==>
      var p := Process(publicUrl(StorageName(uuid, name)), analysis, insertOk);
      r.0 == [Upload(StorageName(uuid, name))] + p.0 && r.1 == p.1
  {
    if !IsImage(mime) then ([], NotAnImage)
    else
      var fileName := StorageName(uuid, name);
      if !uploadOk then ([Upload(fileName)], Failed)
      else
        var p := Process(publicUrl(fileName), analysis, insertOk);
        ([Upload(fileName)] + p.0, p.1)
  }

  /** A label is saved exactly when the photo is an image, the upload, the
      analysis and the insert succeed and the label has a name; the calls
      are then the upload, the analysis of the stored photo's URL and the
      insert of the record built from the label. */
  lemma SavedExactly(
    mime: string, name: string, uuid: string, uploadOk: bool, publicUrl: string -> string,
    analysis: Option<Value>, insertOk: bool)
    ensures var r := HandleFile(mime, name, uuid, uploadOk, publicUrl, analysis, insertOk);
      r.1.Saved? <==> (IsImage(mime) && uploadOk && analysis.Some?
        && Readable(OptGet(analysis.value, "nutrition")) && insertOk)
    ensures var r := HandleFile(mime, name, uuid, uploadOk, publicUrl, analysis, insertOk);
      var url := publicUrl(StorageName(uuid, name));
      r.1.Saved? ==> r.0 == [Upload(StorageName(uuid, name)), Analyze(url),
        Insert(InsertRecord(OptGet(analysis.value, "nutrition"), url).value)]
  {
    var file := StorageName(uuid, name);
    var url := publicUrl(file);
    var p := Process(url, analysis, insertOk);
    var r := HandleFile(mime, name, uuid, uploadOk, publicUrl, analysis, insertOk);
    if IsImage(mime) && uploadOk {
      assert r.0 == [Upload(file)] + p.0 && r.1 == p.1;
      if p.1.Saved? {
        var insert := Insert(InsertRecord(OptGet(analysis.value, "nutrition"), url).value);
        assert p.0 == [Analyze(url), insert] by {
          assert |p.0| == 2 && p.0[0] == Analyze(url) && p.0[1] == insert;
        }
        assert r.0 == [Upload(file)] + [Analyze(url), insert];
        assert r.0 == [Upload(file), Analyze(url), insert] by {
          ThreeCalls(r.0, Upload(file), Analyze(url), insert);
        }
      }
    }
  }

  lemma ThreeCalls(s: seq<Call>, a: Call, b: Call, c: Call)
    requires s == [a] + [b, c]
    ensures s == [a, b, c]
  {
  }

  lemma UnreadableStopsAfterAnalysis(url: string, analysis: Value, insertOk: bool)
    requires !Readable(OptGet(analysis, "nutrition"))
    ensures Process(url, Some(analysis), insertOk) == ([Analyze(url)], Unreadable)
  {
    var p := Process(url, Some(analysis), insertOk);
    assert |p.0| == 1 && p.1 == Unreadable;
    assert p.0 == [Analyze(url)];
  }

  /** An unreadable label stops after the analysis: nothing is inserted. */
  lemma UnreadableInsertsNothing(
    mime: string, name: string, uuid: string, publicUrl: string -> string,
    analysis: Value, insertOk: bool)
    requires IsImage(mime) && !Readable(OptGet(analysis, "nutrition"))
    ensures var r := HandleFile(mime, name, uuid, true, publicUrl, Some(analysis), insertOk);
      r.1 == Unreadable && |r.0| == 2 && forall c | c in r.0 :: !c.Insert?
  {
    var file := StorageName(uuid, name);
    var url := publicUrl(file);
    var p := Process(url, Some(analysis), insertOk);
    UnreadableStopsAfterAnalysis(url, analysis, insertOk);
    var r := HandleFile(mime, name, uuid, true, publicUrl, Some(analysis), insertOk);
    assert r.0 == [Upload(file), Analyze(url)] && r.1 == Unreadable by {
      assert r.0 == [Upload(file)] + p.0 && r.1 == p.1;
    }
    UploadAndAnalyzeOnly(r.0, file, url);
  }

  lemma UploadAndAnalyzeOnly(calls: seq<Call>, file: string, url: string)
    requires calls == [Upload(file), Analyze(url)]
    ensures |calls| == 2 && forall c | c in calls :: !c.Insert?
  {
  }
}

=== FILE: item_editor.dfy ===
/** One row of the shopping list as an editor: a checkbox, a quantity box, a
    unit select, a store select and a delete button. Every edit becomes an
    update of the row keyed by its id, whose patch names one column. */
module ItemEditor {
  import opened Wrappers
  import opened JsValues
  import Shopping

  /** The units offered by the unit select, in display order. */
  const Units: seq<string> := ["pieces", "cups", "lbs", "oz", "tbsp", "tsp", "cloves", "head", "gal"]

  /** The store select's value for "No store". */
  const NoStore := "none"

  /** The columns of a `shopping_list` row and their values: the body of an
      update. */
  type Patch = map<string, Value>

  /** What the user does to one row. Selects report one of their options,
      so a choice is a position in the option list; the checkbox reports
      `true`, `false` or the string "indeterminate"; the quantity box
      reports the number typed (its parsing is not modelled). */
  datatype Event =
    | Toggle(checked: Value)
    | QuantityInput(n: real)
    | ChooseUnit(option: nat)
    | ChooseStore(option: nat)
    | DeletePressed

  datatype Action = Update(id: string, fields: Patch) | Delete(id: string)

  /** The store select's options: "No store" first, then the known stores. */
  function StoreOptions(stores: seq<string>): (r: seq<string>)
    ensures |r| == |stores| + 1 && r[0] == NoStore && r[1..] == stores
  {
    [NoStore] + stores
  }

  /** `store || "none"`: what the store select shows. */
  function StoreSelectValue(store: Option<string>): (v: string)
    ensures v == NoStore <==> store.None? || store == Some("") || store == Some(NoStore)
    ensures v != NoStore ==> store == Some(v)
  {
    match store
    case Some(s) => if s != "" then s else NoStore
    case None => NoStore
  }

  /** `val === "none" ? null : val`: the store column for a chosen value. */
  function StoreColumn(choice: string): (r: Value)
    ensures r.Null? <==> choice == NoStore
    ensures !r.Null? ==> r == Str(choice)
  {
    if choice == NoStore then Null else Str(choice)
  }

  /** The column an edit writes. */
  function ColumnOf(e: Event): string {
    match e
    case Toggle(_) => "is_purchased"
    case QuantityInput(_) => "quantity"
    case ChooseUnit(_) => "unit"
    case ChooseStore(_) => "store"
    case DeletePressed => "id"
  }

  /** The action for an event on the row with id `id`; None for a choice
      that is not among the select's options, which the selects never
      report. An action is on the row's id; the delete button deletes, and
      every other event updates just the column it edits. */
  function Handle(id: string, stores: seq<string>, e: Event): (r: Option<Action>)
    ensures r.None? <==> (e.ChooseUnit? && e.option >= |Units|) || (e.ChooseStore? && e.option > |stores|)
    ensures r.Some? ==> r.value.id == id && (r.value.Delete? <==> e.DeletePressed?)
    ensures r.Some? && r.value.Update? ==> r.value.fields.Keys == {ColumnOf(e)}
    ensures e.QuantityInput? ==> r == Some(Update(id, map["quantity" := Num(e.n)]))
    ensures e.ChooseUnit? && e.option < |Units| ==> r == Some(Update(id, map["unit" := Str(Units[e.option])]))
  {
    match e
    case Toggle(checked) => Some(Update(id, map["is_purchased" := Bool(Truthy(checked))]))
    case QuantityInput(n) => Some(Update(id, map["quantity" := Num(n)]))
    case ChooseUnit(i) =>
      if i < |Units| then Some(Update(id, map["unit" := Str(Units[i])])) else None
    case ChooseStore(i) =>
      var options := StoreOptions(stores);
      if i < |options| then Some(Update(id, map["store" := StoreColumn(options[i])])) else None
    case DeletePressed => Some(Delete(id))
  }

  /** Every edit is an update of this row that names exactly one column, one
      of the four editable ones, never the name; deleting is a separate
      action on the same id and only the delete button causes it. */
  lemma EditsTouchOneColumn(id: string, stores: seq<string>, e: Event)
    requires Handle(id, stores, e).Some?
    ensures var a := Handle(id, stores, e).value;
      && a.id == id
      && (a.Delete? <==> e.DeletePressed?)
      && (a.Update? ==> |a.fields| == 1 && "ingredient_name" !in a.fields && "id" !in a.fields)
      && (a.Update? ==> exists c | c in a.fields :: c in {"is_purchased", "quantity", "unit", "store"})
  {
    var a := Handle(id, stores, e).value;
    if a.Update? {
      var c := if e.Toggle? then "is_purchased" else if e.QuantityInput? then "quantity"
        else if e.ChooseUnit? then "unit" else "store";
      assert a.fields.Keys == {c};
      assert c in a.fields;
    }
  }

  /** The checkbox writes a boolean: `true` for a checked box and, through
      `!!`, for the "indeterminate" state as well. */
  lemma ToggleWritesBoolean(id: string, stores: seq<string>, checked: Value)
    ensures var a := Handle(id, stores, Toggle(checked)).value;
      a.Update? && a.fields.Keys == {"is_purchased"} && a.fields["is_purchased"].Bool?
    ensures Handle(id, stores, Toggle(Bool(true))).value.fields["is_purchased"] == Bool(true)
    ensures Handle(id, stores, Toggle(Str("indeterminate"))).value.fields["is_purchased"] == Bool(true)
    ensures Handle(id, stores, Toggle(Bool(false))).value.fields["is_purchased"] == Bool(false)
  {
    assert map["is_purchased" := Bool(Truthy(checked))].Keys == {"is_purchased"};
  }

  /** The unit select writes a unit from the fixed list, the one at the
      chosen position, and every listed unit can be written. */
  lemma UnitFromList(id: string, stores: seq<string>, i: nat)
    requires Handle(id, stores, ChooseUnit(i)).Some?
    ensures var a := Handle(id, stores, ChooseUnit(i)).value;
      a.Update? && a.fields.Keys == {"unit"} && a.fields["unit"].Str? && a.fields["unit"].s in Units
    ensures i < |Units| && Handle(id, stores, ChooseUnit(i)).value.fields["unit"] == Str(Units[i])
    ensures |Units| == 9
  {
    assert map["unit" := Str(Units[i])].Keys == {"unit"};
  }

  /** Choosing "No store" writes null; choosing a store writes its name
      verbatim. */
  lemma StoreChoiceWrites(id: string, stores: seq<string>, i: nat)
    requires i <= |stores|
    ensures var a := Handle(id, stores, ChooseStore(i)).value;
      && a.Update? && a.fields.Keys == {"store"}
      && (i == 0 ==> a.fields["store"] == Null)
      && (0 < i && stores[i - 1] != NoStore ==> a.fields["store"] == Str(stores[i - 1]))
  {
    assert map["store" := StoreColumn(StoreOptions(stores)[i])].Keys == {"store"};
  }

  /** The store column read back as the row's store. */
  function StoreOf(column: Value): (r: Option<string>)
    ensures column == Null ==> r.None?
    ensures column.Str? ==> r == Some(column.s)
  {
    if column.Str? then Some(column.s) else None
  }

  /** Choosing an option makes the select show that option again, unless
      the option is the empty string. */
  lemma SelectRoundTrip(choice: string)
    requires choice != ""
    ensures StoreSelectValue(StoreOf(StoreColumn(choice))) == choice
  {
  }

  /** A store survives being shown and chosen again exactly when it is not
      empty and not literally named "none"; such a store is shown as
      "No store" and choosing it clears the store. */
  lemma StoreRoundTrip(store: Option<string>)
    ensures StoreOf(StoreColumn(StoreSelectValue(store))) == store
      <==> store.None? || (store.value != "" && store.value != NoStore)
  {
  }

  /** A store named "none" cannot be kept: it shows as "No store", and
      choosing it from the store list writes null. */
  lemma StoreNamedNoneIsCleared(stores: seq<string>, i: nat)
    requires 0 < i <= |stores| && stores[i - 1] == NoStore
    ensures Handle("", stores, ChooseStore(i)).value.fields["store"] == Null
    ensures StoreSelectValue(Some(NoStore)) == NoStore
  {
  }

  /** `update(fields)`: the listed columns take the patch's values, every
      other column keeps its value. */
  function Apply(row: map<string, Value>, fields: Patch): (r: map<string, Value>)
    ensures r.Keys == row.Keys + fields.Keys
    ensures forall c | c in fields :: r[c] == fields[c]
    ensures forall c | c in row && c !in fields :: r[c] == row[c]
  {
    row + fields
  }

  /** A `shopping_list` row as the table holds it; SQL nulls are `null`. */
  function Row(item: Shopping.Item): (r: map<string, Value>)
    ensures r.Keys == {"id", "ingredient_name", "quantity", "unit", "store", "is_purchased"}
  {
    map[
      "id" := Str(item.id),
      "ingredient_name" := Str(item.ingredientName),
      "quantity" := NumberOrNull(item.quantity),
      "unit" := TextOrNull(item.unit),
      "store" := TextOrNull(item.store),
      "is_purchased" := Bool(item.isPurchased)]
  }

  /** Editing a row never changes its id or its name. */
  lemma EditKeepsName(item: Shopping.Item, stores: seq<string>, e: Event)
    requires Handle(item.id, stores, e).Some? && Handle(item.id, stores, e).value.Update?
    ensures var r := Apply(Row(item), Handle(item.id, stores, e).value.fields);
      r["id"] == Str(item.id) && r["ingredient_name"] == Str(item.ingredientName)
  {
    EditsTouchOneColumn(item.id, stores, e);
  }

  /** After a store choice the row lands in the bucket named after the
      choice, or in "Unassigned" for "No store" and for an empty name. */
  lemma StoreChoiceRegroups(item: Shopping.Item, choice: string)
    ensures var moved := item.(store := StoreOf(StoreColumn(choice)));
      Shopping.BucketKey(moved) == (if choice == NoStore || choice == "" then Shopping.Unassigned else choice)
  {
  }
}

=== FILE: js_values.dfy ===
/** JavaScript values as they cross the application's boundaries (JSON
    request and response bodies, loosely typed records), together with the
    truthiness rules and the `||`, `??`, `.` and `?.` operators the
    application applies to them. */
module JsValues {
  import opened Wrappers

  /** Numbers are reals: NaN and the infinities are not modelled. An object
      is a map from its own property names to their values. */
  datatype Value =
    | Undefined
    | Null
    | Bool(b: bool)
    | Num(n: real)
    | Str(s: string)
    | Arr(elems: seq<Value>)
    | Obj(fields: map<string, Value>)

  /** `v == null`: true of `null` and `undefined` only. */
  predicate Nullish(v: Value) {
    v.Undefined? || v.Null?
  }

  /** ECMAScript ToBoolean. */
  predicate Truthy(v: Value) {
    match v
    case Undefined => false
    case Null => false
    case Bool(b) => b
    case Num(n) => n != 0.0
    case Str(s) => s != ""
    case Arr(_) => true
    case Obj(_) => true
  }

  /** `a || b` */
  function Or(a: Value, b: Value): Value {
    if Truthy(a) then a else b
  }

  /** `a ?? b` */
  function Coalesce(a: Value, b: Value): Value {
    if Nullish(a) then b else a
  }

  /** Property `k` of a value that is not nullish: an object's own field, and
      `undefined` for every other value (the built-in properties of strings
      and arrays, such as `length`, are never read through this). */
  function Member(v: Value, k: string): Value {
    if v.Obj? && k in v.fields then v.fields[k] else Undefined
  }

  /** `v.k`, which throws a TypeError (None) on `null` and `undefined`. */
  function Get(v: Value, k: string): (r: Option<Value>)
    ensures r.None? <==> Nullish(v)
    ensures r.Some? ==> r.value == Member(v, k)
  {
    if Nullish(v) then None else Some(Member(v, k))
  }

  /** `v?.k` */
  function OptGet(v: Value, k: string): (r: Value)
    ensures Nullish(v) ==> r.Undefined?
  {
    if Nullish(v) then Undefined else Member(v, k)
  }

  /** `v?.[0]`: the first element of an array, the first character of a
      string, an object's property "0", `undefined` otherwise. */
  function OptFirst(v: Value): (r: Value)
    ensures Nullish(v) ==> r.Undefined?
    ensures v.Arr? && |v.elems| > 0 ==> r == v.elems[0]
  {
    match v
    case Arr(xs) => if |xs| > 0 then xs[0] else Undefined
    case Str(s) => if |s| > 0 then Str(s[..1]) else Undefined
    case Obj(_) => Member(v, "0")
    case _ => Undefined
  }

  /** `v?.length`: a string's or an array's length, an object's own
      `length` property, and `undefined` for everything else. */
  function OptLength(v: Value): Value {
    match v
    case Str(s) => Num(|s| as real)
    case Arr(xs) => Num(|xs| as real)
    case Obj(_) => Member(v, "length")
    case _ => Undefined
  }

  /** A nullable number column (SQL null is `null`) as a JavaScript value. */
  function NumberOrNull(q: Option<real>): (v: Value)
    ensures Nullish(v) <==> q.None?
    ensures q.Some? ==> v == Num(q.value)
  {
    match q case Some(n) => Num(n) case None => Null
  }

  /** A nullable text column as a JavaScript value. */
  function TextOrNull(u: Option<string>): (v: Value)
    ensures Nullish(v) <==> u.None?
    ensures u.Some? ==> v == Str(u.value)
  {
    match u case Some(s) => Str(s) case None => Null
  }

  /** The property names of an object, and nothing for any other value. */
  function Keys(v: Value): set<string> {
    if v.Obj? then v.fields.Keys else {}
  }

  /** `??` keeps every non-nullish value, including `0`, `false` and `""`;
      `||` replaces all of them. */
  lemma CoalesceVersusOr(v: Value, d: Value)
    ensures !Nullish(v) ==> Coalesce(v, d) == v
    ensures Nullish(v) ==> Coalesce(v, d) == d && Or(v, d) == d
    ensures !Truthy(v) ==> Or(v, d) == d
    ensures Coalesce(Num(0.0), d) == Num(0.0) && Or(Num(0.0), d) == d
    ensures Coalesce(Str(""), d) == Str("") && Or(Str(""), d) == d
  {
  }
}

=== FILE: meal_grid.dfy ===
/** The meal-plan page's grid and its add-meal dialog. Each of seven days
    times three meal types shows the first entry of the week for that slot,
    or an "Add" button; adding needs a chosen recipe and a signed-in user. */
module MealGrid {
  import opened Wrappers

  const Days: seq<string> := ["Monday", "Tuesday", "Wednesday", "Thursday", "Friday", "Saturday", "Sunday"]
  const MealTypes: seq<string> := ["breakfast", "lunch", "dinner"]

  /** A `meal_plan` row of the displayed week. Day and meal type are free
      text in the store, so rows outside the grid's vocabulary can exist. */
  datatype Entry = Entry(id: string, recipeId: string, dayOfWeek: string, mealType: string, recipeName: Option<string>)

  predicate InSlot(e: Entry, day: string, mealType: string) {
    e.dayOfWeek == day && e.mealType == mealType
  }

  /** `meals.filter((m) => m.day_of_week === day)`: the entries of the list
      for that day, all of them. */
  function DayMeals(meals: seq<Entry>, day: string): (r: seq<Entry>)
    ensures |r| <= |meals|
    ensures forall i | 0 <= i < |r| :: r[i] in meals && r[i].dayOfWeek == day
    ensures forall i | 0 <= i < |meals| && meals[i].dayOfWeek == day :: meals[i] in r
  {
    if |meals| == 0 then []
    else (if meals[0].dayOfWeek == day then [meals[0]] else []) + DayMeals(meals[1..], day)
  }

  /** `dayMeals.find((m) => m.meal_type === mealType)`: an entry of the
      list with that meal type, None exactly when there is none. */
  function Find(s: seq<Entry>, mealType: string): (r: Option<Entry>)
    ensures r.Some? ==> r.value in s && r.value.mealType == mealType
    ensures r.None? <==> forall i | 0 <= i < |s| :: s[i].mealType != mealType
  {
    if |s| == 0 then None
    else if s[0].mealType == mealType then Some(s[0])
    else Find(s[1..], mealType)
  }

  /** Position of the first entry for a slot, in list order. */
  function FirstInSlot(meals: seq<Entry>, day: string, mealType: string): (r: Option<nat>)
    ensures r.Some? ==> r.value < |meals| && InSlot(meals[r.value], day, mealType)
    ensures forall j | 0 <= j < (if r.Some? then r.value else |meals|) :: !InSlot(meals[j], day, mealType)
  {
    if |meals| == 0 then None
    else if InSlot(meals[0], day, mealType) then Some(0)
    else match FirstInSlot(meals[1..], day, mealType)
      case None => None
      case Some(i) => Some(i + 1)
  }

  /** Filtering by day and then finding by meal type picks the first entry
      for the slot in the whole list. */
  lemma {:induction false} FindAfterFilter(meals: seq<Entry>, day: string, mealType: string)
    ensures Find(DayMeals(meals, day), mealType) ==
      (match FirstInSlot(meals, day, mealType) case None => None case Some(i) => Some(meals[i]))
  {
    if |meals| > 0 {
      var rest := DayMeals(meals[1..], day);
      if meals[0].dayOfWeek == day {
        assert DayMeals(meals, day) == [meals[0]] + rest;
      } else {
        assert DayMeals(meals, day) == rest;
      }
      if !InSlot(meals[0], day, mealType) {
        FindAfterFilter(meals[1..], day, mealType);
        if meals[0].dayOfWeek == day {
          assert ([meals[0]] + rest)[1..] == rest;
        }
        match FirstInSlot(meals[1..], day, mealType)
        case None =>
        case Some(i) => assert meals[1..][i] == meals[i + 1];
      }
    }
  }

  /** What one cell shows: the first entry of the list for its day and meal
      type, or nothing when the slot is empty. */
  function Cell(meals: seq<Entry>, day: string, mealType: string): (r: Option<Entry>)
    ensures r.None? <==> forall i | 0 <= i < |meals| :: !InSlot(meals[i], day, mealType)
    ensures r.Some? ==> exists i | 0 <= i < |meals| ::
      (meals[i] == r.value && InSlot(meals[i], day, mealType)
       && forall j | 0 <= j < i :: !InSlot(meals[j], day, mealType))
  {
    FindAfterFilter(meals, day, mealType);
    Find(DayMeals(meals, day), mealType)
  }

  /** The whole week: seven days, Monday first, of three cells each. */
  function Grid(meals: seq<Entry>): (g: seq<seq<Option<Entry>>>)
    ensures |g| == |Days| && forall d | 0 <= d < |g| :: |g[d]| == |MealTypes|
    ensures forall d, t | 0 <= d < |Days| && 0 <= t < |MealTypes| ::
      g[d][t] == Cell(meals, Days[d], MealTypes[t])
  {
    seq(|Days|, d requires 0 <= d < |Days| =>
      seq(|MealTypes|, t requires 0 <= t < |MealTypes| => Cell(meals, Days[d], MealTypes[t])))
  }

  /** A cell shows an entry of the list, for that cell's day and meal type;
      an empty cell means no entry of the list is for that slot. */
  lemma GridCellsMatch(meals: seq<Entry>, d: nat, t: nat)
    requires d < |Days| && t < |MealTypes|
    ensures var c := Grid(meals)[d][t];
      && (c.Some? ==> c.value in meals && InSlot(c.value, Days[d], MealTypes[t]))
      && (c.None? <==> forall e | e in meals :: !InSlot(e, Days[d], MealTypes[t]))
  {
  }

  /** An entry whose day or meal type is outside the grid's vocabulary is
      never shown. */
  lemma StrayEntriesHidden(meals: seq<Entry>, e: Entry, d: nat, t: nat)
    requires e.dayOfWeek !in Days || e.mealType !in MealTypes
    requires d < |Days| && t < |MealTypes|
    ensures Grid(meals)[d][t] != Some(e)
  {
  }

  /** With several entries for one slot, the one shown is the earliest:
      it comes no later than any of them. */
  lemma DuplicatesShowEarliest(meals: seq<Entry>, i: nat, day: string, mealType: string)
    requires i < |meals| && InSlot(meals[i], day, mealType)
    ensures var k := FirstInSlot(meals, day, mealType);
      k.Some? && k.value <= i && Cell(meals, day, mealType) == Some(meals[k.value])
  {
    FindAfterFilter(meals, day, mealType);
  }

  /** A `meal_plan` insert. */
  datatype NewEntry = NewEntry(recipeId: string, dayOfWeek: string, mealType: string, weekStart: string, userId: string)

  /** The add-meal dialog: whether it is open and what it has selected. */
  datatype Dialog = Dialog(open: bool, day: string, mealType: string, recipeId: string)

  /** Closed, Monday, dinner, no recipe. */
  const InitialDialog := Dialog(false, Days[0], MealTypes[2], "")

  /** `openAddDialog(day, meal)`, behind an empty cell's "Add" button: the
      recipe choice starts empty. */
  function OpenFromCell(day: string, mealType: string): (dlg: Dialog)
    ensures dlg.open && dlg.recipeId == ""
    ensures dlg.day == day && dlg.mealType == mealType
  {
    Dialog(true, day, mealType, "")
  }

  /** Arriving from a recipe with `scheduleRecipeId`: a non-empty id is
      preselected and opens the dialog, keeping the selected day and meal. */
  function OpenForRecipe(dlg: Dialog, scheduleRecipeId: Option<string>): (r: Dialog)
    ensures r.day == dlg.day && r.mealType == dlg.mealType
    ensures scheduleRecipeId.Some? && scheduleRecipeId.value != "" ==> r.open && r.recipeId == scheduleRecipeId.value
    ensures scheduleRecipeId.None? || scheduleRecipeId.value == "" ==> r == dlg
  {
    match scheduleRecipeId
    case Some(id) => if id != "" then dlg.(open := true, recipeId := id) else dlg
    case None => dlg
  }

  datatype AddOutcome = Disabled | NotAuthenticated | Inserted(row: NewEntry)

  /** "Add to Plan": the button is disabled while no recipe is chosen, and
      the mutation throws "Not authenticated" without a user. */
  function PressAdd(dlg: Dialog, user: Option<string>, weekStart: string): (r: AddOutcome)
    ensures r.Inserted? <==> dlg.recipeId != "" && user.Some?
    ensures r == Disabled <==> dlg.recipeId == ""
    ensures r.Inserted? ==> r.row.recipeId != "" && r.row.userId == user.value
    ensures r.Inserted? ==> r.row.dayOfWeek == dlg.day && r.row.mealType == dlg.mealType && r.row.weekStart == weekStart
  {
    if dlg.recipeId == "" then Disabled
    else match user
      case None => NotAuthenticated
      case Some(uid) => Inserted(NewEntry(dlg.recipeId, dlg.day, dlg.mealType, weekStart, uid))
  }

  /** A dialog just opened from an empty cell cannot add anything until a
      recipe is chosen. */
  lemma FreshDialogDisabled(day: string, mealType: string, user: Option<string>, weekStart: string)
    ensures PressAdd(OpenFromCell(day, mealType), user, weekStart) == Disabled
  {
  }
}

=== FILE: recipes_page.dfy ===
/** "Add to shopping list" on the recipes page: the recipe's ingredient rows
    become shopping-list drafts, one per row, with `||` defaults for the
    quantity and the unit. */
module RecipesPage {
  import opened Wrappers
  import opened JsValues

  /** A `recipe_ingredients` row; the defaults may be SQL null. */
  datatype IngredientRow = IngredientRow(ingredientName: string, defaultQuantity: Option<real>, defaultUnit: Option<string>)

  /** A `shopping_list` insert built from a row: exactly these three
      columns, and no owner id. */
  datatype Draft = Draft(ingredientName: string, quantity: real, unit: string)

  /** `{ ingredient_name, quantity: default_quantity || 1, unit: default_unit || "pieces" }` */
  function ToDraft(ing: IngredientRow): (d: Draft)
    ensures d.ingredientName == ing.ingredientName
    ensures Num(d.quantity) == Or(NumberOrNull(ing.defaultQuantity), Num(1.0))
    ensures Str(d.unit) == Or(TextOrNull(ing.defaultUnit), Str("pieces"))
    ensures d.quantity != 0.0 && d.unit != ""
  {
    var q := match ing.defaultQuantity case Some(n) => if n != 0.0 then n else 1.0 case None => 1.0;
    var u := match ing.defaultUnit case Some(s) => if s != "" then s else "pieces" case None => "pieces";
    Draft(ing.ingredientName, q, u)
  }

  /** Null and 0 both become a quantity of 1; null and "" both become
      "pieces"; any other value is kept. */
  lemma DefaultsAreFalsyDefaults(name: string, q: real, u: string)
    ensures ToDraft(IngredientRow(name, None, None)) == Draft(name, 1.0, "pieces")
    ensures ToDraft(IngredientRow(name, Some(0.0), Some(""))) == Draft(name, 1.0, "pieces")
    ensures q != 0.0 && u != "" ==> ToDraft(IngredientRow(name, Some(q), Some(u))) == Draft(name, q, u)
  {
  }

  /** `ingredients.map(...)`: one draft per row, in row order. */
  function Expand(rows: seq<IngredientRow>): (r: seq<Draft>)
    ensures |r| == |rows|
    ensures forall i | 0 <= i < |rows| :: r[i] == ToDraft(rows[i])
  {
    if |rows| == 0 then [] else [ToDraft(rows[0])] + Expand(rows[1..])
  }

  /** Expanding a concatenation expands each part. */
  lemma {:induction false} ExpandAppend(a: seq<IngredientRow>, b: seq<IngredientRow>)
    ensures Expand(a + b) == Expand(a) + Expand(b)
  {
    if |a| > 0 {
      assert (a + b)[1..] == a[1..] + b;
      ExpandAppend(a[1..], b);
    } else {
      assert a + b == b;
    }
  }

  /** How `addRecipeToList` ends: the load failed (nothing inserted), the
      insert failed, or the drafts were inserted and the message counts them. */
  datatype Outcome =
    | LoadFailed
    | InsertFailed(attempted: seq<Draft>)
    | Added(inserted: seq<Draft>, count: nat)

  /** `addRecipeToList`: `load` is the ingredient query's result (None for
      an error) and `insertOk` whether the insert of the drafts succeeded. */
  function AddRecipeToList(load: Option<seq<IngredientRow>>, insertOk: bool): (r: Outcome)
    ensures r.LoadFailed? <==> load.None?
    ensures r.InsertFailed? ==> load.Some? && r.attempted == Expand(load.value)
    ensures r.Added? <==> load.Some? && insertOk
    ensures r.Added? ==> r.inserted == Expand(load.value) && r.count == |r.inserted| == |load.value|
  {
    match load
    case None => LoadFailed
    case Some(rows) =>
      var items := Expand(rows);
      if insertOk then Added(items, |items|) else InsertFailed(items)
  }
}

=== FILE: search_page.dfy ===
/** The recipe search page: the guard on the query, the states of the
    search request and what each shows, and "Add to Library", which stores a
    found recipe and then its ingredient rows. */
module SearchPage {
  import opened Wrappers
  import opened JsValues
  import opened Strings

  /** `handleSearch`: the query to send, which is the trimmed input, or
      nothing when the trimmed input is empty. */
  function SearchRequest(query: string): (r: Option<string>)
    ensures r.Some? <==> !AllSpace(query)
    ensures r.Some? ==> r.value == Trim(query) && r.value != "" && Tight(r.value)
  {
    TrimEmpty(query);
    var q := Trim(query);
    if q != "" then Some(q) else None
  }

  /** Submitting the same search again with more surrounding white space
      sends the same query. */
  lemma SearchIgnoresPadding(query: string)
    ensures SearchRequest(Trim(query)) == SearchRequest(query)
  {
    TrimIdempotent(query);
    TrimEmpty(query);
    TrimEmpty(Trim(query));
  }

  /** A found recipe. The search function passes on whatever the model
      produced, so each field is an arbitrary JavaScript value; in particular
      `ingredients` may be an array, null, missing, a string or anything
      else. */
  datatype SearchRecipe = SearchRecipe(
    name: Value,
    description: Value,
    instructions: Value,
    sourceUrl: Value,
    ingredients: Value)

  /** The state of the search request. */
  datatype Status = Idle | Pending | Success | Failed

  datatype SearchState = SearchState(status: Status, results: seq<SearchRecipe>)

  const Initial := SearchState(Idle, [])

  /** A search was sent: the request is pending, the old results stay. */
  function Start(st: SearchState): (r: SearchState)
    ensures r.status == Pending && r.results == st.results
  {
    st.(status := Pending)
  }

  /** `setResults(data || [])`: a null or missing `recipes` payload counts
      as no results. Payloads that are not arrays are not modelled. */
  function Succeed(st: SearchState, recipes: Option<seq<SearchRecipe>>): (r: SearchState)
    ensures r.status == Success
    ensures recipes.None? ==> r.results == []
    ensures recipes.Some? ==> r.results == recipes.value
  {
    SearchState(Success, recipes.GetOr([]))
  }

  /** A failed search keeps the previous results. */
  function Fail(st: SearchState): (r: SearchState)
    ensures r.status == Failed && r.results == st.results
  {
    st.(status := Failed)
  }

  /** What the results area shows. */
  datatype Display = Spinner | Cards(recipes: seq<SearchRecipe>) | NoRecipesFound | Blank

  function Render(st: SearchState): (d: Display)
    ensures d == Spinner <==> st.status == Pending
    ensures d == NoRecipesFound <==> st.status != Pending && st.status != Idle && |st.results| == 0
    ensures d.Cards? <==> st.status != Pending && |st.results| > 0
    ensures d.Cards? ==> d.recipes == st.results
  {
    if st.status == Pending then Spinner
    else if |st.results| > 0 then Cards(st.results)
    else if st.status != Idle then NoRecipesFound
    else Blank
  }

  /** Before the first search nothing is shown; a search that comes back
      without recipes says so; a failed first search says so as well. */
  lemma NoResultsMessage(recipes: Option<seq<SearchRecipe>>)
    ensures Render(Initial) == Blank
    ensures Render(Start(Initial)) == Spinner
    ensures (recipes.None? || recipes == Some([])) ==> Render(Succeed(Start(Initial), recipes)) == NoRecipesFound
    ensures Render(Fail(Start(Initial))) == NoRecipesFound
  {
  }

  /** `recipe.ingredients?.length ?? 0`, the count shown on a card. */
  function IngredientCount(recipe: SearchRecipe): (n: Value)
    ensures recipe.ingredients.Arr? ==> n == Num(|recipe.ingredients.elems| as real)
    ensures recipe.ingredients.Str? ==> n == Num(|recipe.ingredients.s| as real)
    ensures recipe.ingredients.Obj? ==> n == Coalesce(Member(recipe.ingredients, "length"), Num(0.0))
    ensures !(recipe.ingredients.Arr? || recipe.ingredients.Str? || recipe.ingredients.Obj?) ==> n == Num(0.0)
  {
    Coalesce(OptLength(recipe.ingredients), Num(0.0))
  }

  /** A `recipe_ingredients` insert: the new recipe's id and the three
      fields exactly as found, with no defaults applied. */
  datatype IngredientInsert = IngredientInsert(recipeId: string, ingredientName: Value, defaultQuantity: Value, defaultUnit: Value)

  /** What the ingredient step of `addToLibrary` does: nothing, an insert
      of these rows, or a TypeError before any insert. */
  datatype IngredientStep = NoInsert | Insert(rows: seq<IngredientInsert>) | Throws

  /** Some element of the list is null or undefined. */
  predicate HasNullish(xs: seq<Value>) {
    exists i | 0 <= i < |xs| :: Nullish(xs[i])
  }

  /** The ingredient step for a recipe stored under `recipeId`. Nothing is
      inserted when `recipe.ingredients?.length` is falsy. Otherwise
      `recipe.ingredients.map` throws unless `ingredients` is an array, and
      reading `ing.ingredient_name` throws on a null or undefined element;
      an array of other elements gives one row per element, in order. The
      step inserts nothing exactly when the card shows a falsy count, and
      an insert has as many rows as the card shows. */
  function IngredientRows(recipeId: string, recipe: SearchRecipe): (r: IngredientStep)
    ensures r.NoInsert? <==> !Truthy(IngredientCount(recipe))
    ensures r.Throws? <==> (Truthy(IngredientCount(recipe))
      && (!recipe.ingredients.Arr? || HasNullish(recipe.ingredients.elems)))
    ensures r.Insert? ==> (recipe.ingredients.Arr? && 0 < |r.rows|
      && IngredientCount(recipe) == Num(|r.rows| as real))
    ensures r.Insert? ==> forall i | 0 <= i < |r.rows| ::
      var ing := recipe.ingredients.elems[i];
      r.rows[i] == IngredientInsert(recipeId, Member(ing, "ingredient_name"), Member(ing, "default_quantity"), Member(ing, "default_unit"))
  {
    var v := recipe.ingredients;
    if !Truthy(OptLength(v)) then NoInsert
    else if !v.Arr? || HasNullish(v.elems) then Throws
    else Insert(seq(|v.elems|, i requires 0 <= i < |v.elems| =>
      IngredientInsert(recipeId, Member(v.elems[i], "ingredient_name"), Member(v.elems[i], "default_quantity"), Member(v.elems[i], "default_unit"))))
  }

  /** The backend writes `addToLibrary` makes, in order. */
  datatype Write =
    | InsertRecipe(name: Value, description: Value, instructions: Value)
    | InsertIngredients(rows: seq<IngredientInsert>)

  /** `addToLibrary`: `newId` is the recipe insert's result (None for an
      error) and `ingredientsOk` whether the ingredient insert succeeded.
      The result lists the writes made and whether "Added!" is shown; any
      error, including a TypeError of the ingredient step, shows "Failed to
      add recipe" instead. */
  function AddToLibrary(recipe: SearchRecipe, newId: Option<string>, ingredientsOk: bool): (r: (seq<Write>, bool))
    ensures |r.0| >= 1 && r.0[0] == InsertRecipe(recipe.name, recipe.description, recipe.instructions)
    ensures |r.0| <= 2
    ensures |r.0| == 2 <==> newId.Some? && IngredientRows(newId.value, recipe).Insert?
    ensures |r.0| == 2 ==> r.0[1] == InsertIngredients(IngredientRows(newId.value, recipe).rows)
    ensures r.1 <==> (newId.Some? && (IngredientRows(newId.value, recipe).NoInsert?
      || (IngredientRows(newId.value, recipe).Insert? && ingredientsOk)))
  {
    var first := InsertRecipe(recipe.name, recipe.description, recipe.instructions);
    match newId
    case None => ([first], false)
    case Some(id) =>
      match IngredientRows(id, recipe)
      case NoInsert => ([first], true)
      case Throws => ([first], false)
      case Insert(rows) => ([first, InsertIngredients(rows)], ingredientsOk)
  }

  /** A recipe whose `ingredients` came back as text, such as "2 eggs":
      the card counts its characters, and adding it stores the recipe but
      then fails at `map`, so the page reports a failure although the
      recipe row was written. */
  lemma TextIngredientsFailAfterStoring(recipe: SearchRecipe, id: string, ok: bool)
    requires recipe.ingredients.Str? && recipe.ingredients.s != ""
    ensures IngredientCount(recipe) == Num(|recipe.ingredients.s| as real)
    ensures AddToLibrary(recipe, Some(id), ok) == ([InsertRecipe(recipe.name, recipe.description, recipe.instructions)], false)
  {
  }

  /** A list of ingredient objects is added in full: both inserts are made,
      the second with one row per ingredient, and "Added!" shows exactly
      when the ingredient insert succeeds. */
  lemma ListIngredientsStored(recipe: SearchRecipe, id: string, ok: bool)
    requires recipe.ingredients.Arr? && |recipe.ingredients.elems| > 0
    requires forall i | 0 <= i < |recipe.ingredients.elems| :: recipe.ingredients.elems[i].Obj?
    ensures var r := AddToLibrary(recipe, Some(id), ok);
      |r.0| == 2 && |r.0[1].rows| == |recipe.ingredients.elems| && (r.1 <==> ok)
  {
    assert !HasNullish(recipe.ingredients.elems);
  }

  /** The stored recipe keeps only name, description and instructions: two
      found recipes that differ only in their source URL or ingredients
      make the same recipe insert. */
  lemma SourceUrlNotStored(a: SearchRecipe, b: SearchRecipe, id: Option<string>, ok: bool)
    requires a.name == b.name && a.description == b.description && a.instructions == b.instructions
    ensures AddToLibrary(a, id, ok).0[0] == AddToLibrary(b, id, ok).0[0]
  {
  }
}

=== FILE: search_recipes_fn.dfy ===
/** The `search-recipes` edge function: it takes `{ query }`, asks the AI
    gateway for recipes, and answers `{ recipes }` with the parsed reply,
    `[]` when the reply cannot be parsed. Unlike `analyze-nutrition` it
    answers every failed gateway call with a 500. */
module SearchRecipesFn {
  import opened Wrappers
  import opened JsValues
  import opened AiGateway

  /** The answer once the gateway has been called: `upstream` is what the
      call gave and `parse` stands for `JSON.parse`. */
  function Answer(upstream: Upstream, parse: string -> Option<Value>): (r: Response)
    ensures r.status == 200 <==> upstream.Reply? && Ok(upstream.status) && upstream.body.Some? && !Nullish(upstream.body.value)
    ensures r.status == 200 ==> Keys(r.body) == {"recipes"}
    ensures r.status == 200 ==> (ContentOf(upstream.body.value, "[]").Some?
      && r.body == Obj(map["recipes" := Decode(ContentOf(upstream.body.value, "[]").value, parse, Arr([]))]))
    ensures upstream.Reply? && !Ok(upstream.status) ==> r.status == 500
    ensures r.status in {200, 500}
  {
    match upstream
    case Unreachable => InternalError
    case Reply(status, data) =>
      if !Ok(status) then Error(500, "AI search failed")
      else match data
        case None => InternalError
        case Some(d) =>
          match ContentOf(d, "[]")
          case None => InternalError
          case Some(content) => Response(200, Obj(map["recipes" := Decode(content, parse, Arr([]))]))
  }

  /** The function as a whole: the gateway is called with the request's
      `query` exactly when it is truthy and the key is configured, and a 400
      means exactly that `query` was missing or falsy. */
  lemma BadRequestExactly(request: Option<Value>, apiKey: Option<string>, upstream: Upstream, parse: string -> Option<Value>)
    ensures var r := Handle(request, "query", "Query is required", apiKey, Answer(upstream, parse));
      && (r.sent.Some? <==> Accepted(request, "query", apiKey))
      && (r.response.status == 400 <==>
           request.Some? && !Nullish(request.value) && !Truthy(Member(request.value, "query")))
  {
  }

  /** Every failed gateway call, a rate limit included, is answered 500. */
  lemma EveryUpstreamErrorIs500(data: Option<Value>, parse: string -> Option<Value>)
    ensures Answer(Reply(429, data), parse).status == 500
    ensures Answer(Reply(402, data), parse).status == 500
    ensures Answer(Unreachable, parse).status == 500
  {
  }

  /** A reply that does not parse is answered 200 with no recipes. */
  lemma ParseFailureGivesNone(status: int, data: Value, parse: string -> Option<Value>, content: string)
    requires Ok(status) && ContentOf(data, "[]") == Some(Str(content)) && parse(StripFences(content)).None?
    ensures Answer(Reply(status, Some(data)), parse) == Response(200, Obj(map["recipes" := Arr([])]))
  {
  }

  /** With no reply content the function parses "[]": the answer is an
      empty recipe list whenever `JSON.parse("[]")` is `[]`. */
  lemma MissingContentGivesNone(status: int, parse: string -> Option<Value>)
    requires Ok(status) && parse("[]") == Some(Arr([]))
    ensures Answer(Reply(status, Some(Obj(map[]))), parse) == Response(200, Obj(map["recipes" := Arr([])]))
  {
    var text := "[]";
    assert '`' !in text && Strings.Tight(text);
    PlainTightKept(text);
    EmptyBodyFallsBack(text);
    assert Decode(Str(text), parse, Arr([])) == Arr([]);
  }
}

=== FILE: shopping.dfy ===
/** The shopping-list page: the list as loaded (oldest first), the optional
    grouping by store, adding an item by name, and the values shown for a
    missing quantity or unit. */
module Shopping {
  import opened Wrappers
  import opened Strings
  import opened JsValues

  /** A `shopping_list` row; `None` is a SQL null. */
  datatype Item = Item(
    id: string,
    ingredientName: string,
    quantity: Option<real>,
    unit: Option<string>,
    store: Option<string>,
    isPurchased: bool)

  const Unassigned := "Unassigned"

  /** `item.store || "Unassigned"`: a null or empty store falls into the
      same bucket as a store literally named "Unassigned". */
  function BucketKey(item: Item): string {
    match item.store
    case Some(s) => if s != "" then s else Unassigned
    case None => Unassigned
  }

  /** A bucket key is never empty: a named store is its own key, and a
      missing store, an empty name and the name "Unassigned" share one. */
  lemma BucketKeyMeaning(item: Item)
    ensures BucketKey(item) != ""
    ensures BucketKey(item) == Unassigned <==>
      item.store.None? || item.store == Some("") || item.store == Some(Unassigned)
    ensures BucketKey(item) != Unassigned ==> item.store == Some(BucketKey(item))
  {
  }

  datatype Bucket = Bucket(key: string, items: seq<Item>)

  /** The items with bucket key `k`, in list order. */
  function Filter(items: seq<Item>, k: string): seq<Item> {
    if |items| == 0 then []
    else
      var last := items[|items| - 1];
      Filter(items[..|items| - 1], k) + (if BucketKey(last) == k then [last] else [])
  }

  lemma {:induction false} FilterMembers(items: seq<Item>, k: string, x: Item)
    ensures x in Filter(items, k) <==> x in items && BucketKey(x) == k
  {
    if |items| > 0 {
      FilterMembers(items[..|items| - 1], k, x);
      assert items == items[..|items| - 1] + [items[|items| - 1]];
    }
  }

  /** All items of the buckets, bucket after bucket. */
  function Flatten(buckets: seq<Bucket>): seq<Item> {
    if |buckets| == 0 then [] else buckets[0].items + Flatten(buckets[1..])
  }

  function KeySet(buckets: seq<Bucket>): set<string> {
    set i | 0 <= i < |buckets| :: buckets[i].key
  }

  lemma KeySetCons(b: Bucket, s: seq<Bucket>)
    ensures KeySet([b] + s) == {b.key} + KeySet(s)
  {
    var t := [b] + s;
    assert t[0].key == b.key;
    assert forall j | 0 <= j < |s| :: t[j + 1] == s[j];
  }

  lemma SameKeys(a: seq<Bucket>, b: seq<Bucket>)
    requires |a| == |b| && forall j | 0 <= j < |a| :: a[j].key == b[j].key
    ensures KeySet(a) == KeySet(b)
  {
  }

  predicate DistinctKeys(buckets: seq<Bucket>) {
    forall i, j | 0 <= i < j < |buckets| :: buckets[i].key != buckets[j].key
  }

  /** Keys strictly increasing in the model's string order. */
  predicate SortedKeys(buckets: seq<Bucket>) {
    forall i, j | 0 <= i < j < |buckets| :: Less(buckets[i].key, buckets[j].key)
  }

  /** The reduce's `acc[key]` lookup: the position of the bucket with key `k`,
      or `|acc|` when there is none. */
  function IndexOf(acc: seq<Bucket>, k: string): (i: nat)
    ensures i <= |acc|
    ensures i < |acc| ==> acc[i].key == k
    ensures forall j | 0 <= j < i :: acc[j].key != k
  {
    if |acc| == 0 then 0
    else if acc[0].key == k then 0
    else 1 + IndexOf(acc[1..], k)
  }

  /** One step of the reduce: `if (!acc[key]) acc[key] = []; acc[key].push(item)`. */
  function Push(acc: seq<Bucket>, item: Item): seq<Bucket> {
    var k := BucketKey(item);
    var i := IndexOf(acc, k);
    if i < |acc| then acc[i := Bucket(k, acc[i].items + [item])]
    else acc + [Bucket(k, [item])]
  }

  lemma {:induction false} FlattenAppend(acc: seq<Bucket>, b: Bucket)
    ensures multiset(Flatten(acc + [b])) == multiset(Flatten(acc)) + multiset(b.items)
  {
    if |acc| > 0 {
      assert (acc + [b])[1..] == acc[1..] + [b];
      FlattenAppend(acc[1..], b);
    } else {
      assert [b][1..] == [];
    }
  }

  lemma {:induction false} FlattenUpdate(acc: seq<Bucket>, i: nat, x: Item)
    requires i < |acc|
    ensures multiset(Flatten(acc[i := Bucket(acc[i].key, acc[i].items + [x])]))
      == multiset(Flatten(acc)) + multiset{x}
  {
    var u := acc[i := Bucket(acc[i].key, acc[i].items + [x])];
    assert Flatten(u) == u[0].items + Flatten(u[1..]);
    assert Flatten(acc) == acc[0].items + Flatten(acc[1..]);
    if i > 0 {
      assert u[1..] == acc[1..][i - 1 := Bucket(acc[i].key, acc[i].items + [x])];
      FlattenUpdate(acc[1..], i - 1, x);
      assert u[0] == acc[0];
    } else {
      assert u[1..] == acc[1..];
      assert u[0].items == acc[0].items + [x];
    }
  }

  /** `r` groups `items`: distinct keys, each bucket non-empty and holding
      exactly the items with its key in list order, no item without a
      bucket, and nothing lost or added. */
  ghost predicate Groups(r: seq<Bucket>, items: seq<Item>) {
    && DistinctKeys(r)
    && (forall i | 0 <= i < |r| :: r[i].items == Filter(items, r[i].key) && |r[i].items| > 0)
    && (forall x | x in items :: BucketKey(x) in KeySet(r))
    && multiset(Flatten(r)) == multiset(items)
  }

  lemma FilterSnoc(items: seq<Item>, x: Item, k: string)
    ensures Filter(items + [x], k) == Filter(items, k) + (if BucketKey(x) == k then [x] else [])
  {
    assert (items + [x])[..|items|] == items;
  }

  /** A push keeps every existing key in place and adds the item's key. */
  lemma PushKeys(acc: seq<Bucket>, x: Item)
    ensures |acc| <= |Push(acc, x)| <= |acc| + 1
    ensures forall j | 0 <= j < |acc| :: Push(acc, x)[j].key == acc[j].key
    ensures KeySet(Push(acc, x)) == KeySet(acc) + {BucketKey(x)}
  {
    var k := BucketKey(x);
    var i := IndexOf(acc, k);
    var u := Push(acc, x);
    if i < |acc| {
      assert k in KeySet(acc);
      SameKeys(u, acc);
    } else {
      assert u == acc + [Bucket(k, [x])];
      assert u[|acc|].key == k;
      assert forall j | 0 <= j < |acc| :: u[j] == acc[j];
    }
  }

  lemma PushDistinct(acc: seq<Bucket>, x: Item)
    requires DistinctKeys(acc)
    ensures DistinctKeys(Push(acc, x))
  {
    PushKeys(acc, x);
  }

  lemma PushFlatten(acc: seq<Bucket>, x: Item)
    ensures multiset(Flatten(Push(acc, x))) == multiset(Flatten(acc)) + multiset{x}
  {
    var i := IndexOf(acc, BucketKey(x));
    if i < |acc| {
      FlattenUpdate(acc, i, x);
    } else {
      FlattenAppend(acc, Bucket(BucketKey(x), [x]));
    }
  }

  lemma PushFilters(acc: seq<Bucket>, items: seq<Item>, x: Item)
    requires DistinctKeys(acc)
    requires forall i | 0 <= i < |acc| :: acc[i].items == Filter(items, acc[i].key) && |acc[i].items| > 0
    requires forall y | y in items :: BucketKey(y) in KeySet(acc)
    ensures var u := Push(acc, x);
      forall i | 0 <= i < |u| :: u[i].items == Filter(items + [x], u[i].key) && |u[i].items| > 0
  {
    var k := BucketKey(x);
    var u := Push(acc, x);
    PushKeys(acc, x);
    if IndexOf(acc, k) == |acc| && Filter(items, k) != [] {
      FilterMembers(items, k, Filter(items, k)[0]);
    }
    forall j | 0 <= j < |u|
      ensures u[j].items == Filter(items + [x], u[j].key) && |u[j].items| > 0
    {
      FilterSnoc(items, x, u[j].key);
    }
  }

  /** One reduce step keeps the grouping invariant. */
  lemma PushKeeps(acc: seq<Bucket>, items: seq<Item>, x: Item)
    requires Groups(acc, items)
    ensures Groups(Push(acc, x), items + [x])
  {
    PushKeys(acc, x);
    PushDistinct(acc, x);
    PushFlatten(acc, x);
    PushFilters(acc, items, x);
  }

  /** `items.reduce(...)`: each item pushed in list order onto the bucket of
      its key, a new bucket at the end for a new key. */
  function Reduce(items: seq<Item>): (r: seq<Bucket>)
    ensures |r| <= |items|
  {
    if |items| == 0 then []
    else
      var init := items[..|items| - 1];
      var acc := Reduce(init);
      PushKeys(acc, items[|items| - 1]);
      Push(acc, items[|items| - 1])
  }

  /** The position of the first item with bucket key `k`, or `|items|` when
      there is none. */
  function FirstAt(items: seq<Item>, k: string): (p: nat)
    ensures p <= |items|
    ensures p < |items| ==> BucketKey(items[p]) == k
  {
    if |items| == 0 then 0
    else
      var init := items[..|items| - 1];
      var p := FirstAt(init, k);
      if p < |init| then p
      else if BucketKey(items[|items| - 1]) == k then |init|
      else |items|
  }

  /** No item before the first position has the key, so a key absent from
      the list has position `|items|`. */
  lemma {:induction false} FirstAtIsFirst(items: seq<Item>, k: string, j: nat)
    requires j < FirstAt(items, k)
    ensures BucketKey(items[j]) != k
  {
    var init := items[..|items| - 1];
    if j < |init| && j < FirstAt(init, k) {
      FirstAtIsFirst(init, k, j);
    }
  }

  /** Buckets in the order their keys first appear in the list. */
  ghost predicate FirstAppearanceOrder(r: seq<Bucket>, items: seq<Item>) {
    && (forall i | 0 <= i < |r| :: FirstAt(items, r[i].key) < |items|)
    && (forall i, j | 0 <= i < j < |r| :: FirstAt(items, r[i].key) < FirstAt(items, r[j].key))
  }

  /** Appending an item keeps a key's first position when the key already
      appears; otherwise the key first appears at the new item, if at all. */
  lemma FirstAtSnoc(items: seq<Item>, x: Item, k: string)
    ensures FirstAt(items + [x], k) ==
      if FirstAt(items, k) < |items| then FirstAt(items, k)
      else if BucketKey(x) == k then |items| else |items| + 1
  {
    assert (items + [x])[..|items|] == items;
  }

  /** A key that appears in a list covered by the buckets has a bucket. */
  lemma AppearingKeyHasBucket(acc: seq<Bucket>, items: seq<Item>, k: string)
    requires forall y | y in items :: BucketKey(y) in KeySet(acc)
    ensures FirstAt(items, k) < |items| ==> IndexOf(acc, k) < |acc|
  {
    if FirstAt(items, k) < |items| {
      assert items[FirstAt(items, k)] in items;
      var j :| 0 <= j < |acc| && acc[j].key == k;
    }
  }

  /** One reduce step keeps the buckets in order of first appearance: old
      keys keep their first position and a new key comes last. */
  lemma PushOrder(acc: seq<Bucket>, items: seq<Item>, x: Item)
    requires forall y | y in items :: BucketKey(y) in KeySet(acc)
    requires FirstAppearanceOrder(acc, items)
    ensures FirstAppearanceOrder(Push(acc, x), items + [x])
  {
    var n := |items|;
    var ys := items + [x];
    var u := Push(acc, x);
    var k := BucketKey(x);
    PushKeys(acc, x);
    forall j | 0 <= j < |acc|
      ensures FirstAt(ys, u[j].key) == FirstAt(items, acc[j].key) < n
    {
      FirstAtSnoc(items, x, acc[j].key);
    }
    if |u| > |acc| {
      assert u[|acc|].key == k;
      AppearingKeyHasBucket(acc, items, k);
      FirstAtSnoc(items, x, k);
    }
    forall i, j | 0 <= i < j < |u|
      ensures FirstAt(ys, u[i].key) < FirstAt(ys, u[j].key)
    {
      if j < |acc| {
        assert FirstAt(items, acc[i].key) < FirstAt(items, acc[j].key);
      }
    }
  }

  /** Each reduce step keeps the grouping invariant. */
  lemma {:induction false} ReduceGroupsCore(items: seq<Item>)
    ensures Groups(Reduce(items), items)
  {
    if |items| > 0 {
      var init := items[..|items| - 1];
      var x := items[|items| - 1];
      ReduceGroupsCore(init);
      assert items == init + [x];
      PushKeeps(Reduce(init), init, x);
    }
  }

  /** Every item's key has a bucket. */
  lemma ReduceCovers(items: seq<Item>)
    ensures forall y | y in items :: BucketKey(y) in KeySet(Reduce(items))
  {
    ReduceGroupsCore(items);
  }

  /** Each reduce step keeps the buckets in order of first appearance. */
  lemma {:induction false} ReduceInOrder(items: seq<Item>)
    ensures FirstAppearanceOrder(Reduce(items), items)
  {
    if |items| > 0 {
      var init := items[..|items| - 1];
      var x := items[|items| - 1];
      ReduceInOrder(init);
      ReduceCovers(init);
      PushOrder(Reduce(init), init, x);
      assert items == init + [x];
    }
  }

  /** The reduce groups the list: one bucket per key, in order of first
      appearance, each non-empty and holding exactly the items with its key
      in list order, every item's key with a bucket, and nothing lost or
      added. */
  lemma {:induction false} ReduceGroups(items: seq<Item>)
    ensures var r := Reduce(items);
      && DistinctKeys(r)
      && (forall i | 0 <= i < |r| :: r[i].items == Filter(items, r[i].key) && |r[i].items| > 0)
      && (forall x | x in items :: BucketKey(x) in KeySet(r))
      && multiset(Flatten(r)) == multiset(items)
      && (forall i, j | 0 <= i < j < |r| :: FirstAt(items, r[i].key) < FirstAt(items, r[j].key))
  {
    ReduceGroupsCore(items);
    ReduceInOrder(items);
  }

  lemma SortedAfter(b: Bucket, s: seq<Bucket>)
    requires SortedKeys(s) && |s| > 0 && Less(b.key, s[0].key)
    ensures SortedKeys([b] + s)
  {
    forall j | 0 < j < |s|
      ensures Less(b.key, s[j].key)
    {
      LessTransitive(b.key, s[0].key, s[j].key);
    }
  }

  lemma SortedBehind(h: Bucket, tail: seq<Bucket>, b: Bucket, t: seq<Bucket>)
    requires SortedKeys([h] + tail) && SortedKeys(t) && Less(h.key, b.key)
    requires multiset(t) == multiset(tail) + multiset{b}
    ensures SortedKeys([h] + t)
  {
    var s := [h] + tail;
    forall j | 0 <= j < |t|
      ensures Less(h.key, t[j].key)
    {
      assert t[j] in multiset(t);
      if t[j] != b {
        assert t[j] in multiset(tail);
        assert t[j] in tail;
        var m :| 0 <= m < |tail| && tail[m] == t[j];
        assert s[0] == h && s[m + 1] == t[j];
      }
    }
    var r := [h] + t;
    forall a, c | 0 <= a < c < |r|
      ensures Less(r[a].key, r[c].key)
    {
      if a > 0 {
        assert r[a] == t[a - 1] && r[c] == t[c - 1];
      } else {
        assert r[c] == t[c - 1];
      }
    }
  }

  /** Putting a bucket in front adds its key, itself and its items. */
  lemma ConsFacts(b: Bucket, s: seq<Bucket>)
    ensures KeySet([b] + s) == {b.key} + KeySet(s)
    ensures multiset([b] + s) == multiset(s) + multiset{b}
    ensures multiset(Flatten([b] + s)) == multiset(Flatten(s)) + multiset(b.items)
  {
    KeySetCons(b, s);
    assert ([b] + s)[1..] == s;
  }

  lemma SortedTail(h: Bucket, tail: seq<Bucket>)
    requires SortedKeys([h] + tail)
    ensures SortedKeys(tail) && forall j | 0 <= j < |tail| :: Less(h.key, tail[j].key)
  {
    var s := [h] + tail;
    forall a, c | 0 <= a < c < |tail|
      ensures Less(tail[a].key, tail[c].key)
    {
      assert tail[a] == s[a + 1] && tail[c] == s[c + 1];
    }
    forall j | 0 <= j < |tail|
      ensures Less(h.key, tail[j].key)
    {
      assert s[0] == h && tail[j] == s[j + 1];
    }
  }

  lemma InsertFront(b: Bucket, s: seq<Bucket>)
    requires SortedKeys(s) && (|s| == 0 || Less(b.key, s[0].key))
    ensures SortedKeys([b] + s)
    ensures multiset([b] + s) == multiset(s) + multiset{b}
    ensures KeySet([b] + s) == KeySet(s) + {b.key}
    ensures multiset(Flatten([b] + s)) == multiset(Flatten(s)) + multiset(b.items)
  {
    if |s| > 0 {
      SortedAfter(b, s);
    }
    ConsFacts(b, s);
  }

  /** Putting the same bucket in front of a list and of its extension by
      `b` keeps the difference: `b` itself, its key and its items. */
  lemma InsertBehind(b: Bucket, h: Bucket, tail: seq<Bucket>, t: seq<Bucket>)
    requires multiset(t) == multiset(tail) + multiset{b}
    ensures multiset([h] + t) == multiset([h] + tail) + multiset{b}
  {
    assert multiset([h] + t) == multiset{h} + multiset(t);
    assert multiset([h] + tail) == multiset{h} + multiset(tail);
  }

  lemma InsertBehindKeys(b: Bucket, h: Bucket, tail: seq<Bucket>, t: seq<Bucket>)
    requires KeySet(t) == KeySet(tail) + {b.key}
    ensures KeySet([h] + t) == KeySet([h] + tail) + {b.key}
  {
    KeySetCons(h, tail);
    KeySetCons(h, t);
  }

  lemma InsertBehindItems(b: Bucket, h: Bucket, tail: seq<Bucket>, t: seq<Bucket>)
    requires multiset(Flatten(t)) == multiset(Flatten(tail)) + multiset(b.items)
    ensures multiset(Flatten([h] + t)) == multiset(Flatten([h] + tail)) + multiset(b.items)
  {
    assert ([h] + t)[1..] == t && ([h] + tail)[1..] == tail;
    assert Flatten([h] + t) == h.items + Flatten(t);
    assert Flatten([h] + tail) == h.items + Flatten(tail);
  }

  /** Insertion of one bucket into a list sorted by key. */
  function Insert(b: Bucket, s: seq<Bucket>): (r: seq<Bucket>)
    requires SortedKeys(s) && b.key !in KeySet(s)
    ensures SortedKeys(r)
    ensures multiset(r) == multiset(s) + multiset{b}
    ensures KeySet(r) == KeySet(s) + {b.key}
    ensures multiset(Flatten(r)) == multiset(Flatten(s)) + multiset(b.items)
  {
    if |s| == 0 || Less(b.key, s[0].key) then
      InsertFront(b, s);
      [b] + s
    else
      var h, tail := s[0], s[1..];
      assert s == [h] + tail;
      ConsFacts(h, tail);
      SortedTail(h, tail);
      LessTotal(b.key, h.key);
      var t := Insert(b, tail);
      SortedBehind(h, tail, b, t);
      InsertBehind(b, h, tail, t);
      InsertBehindKeys(b, h, tail, t);
      InsertBehindItems(b, h, tail, t);
      [h] + t
  }

  lemma DistinctTail(h: Bucket, tail: seq<Bucket>)
    requires DistinctKeys([h] + tail)
    ensures DistinctKeys(tail) && h.key !in KeySet(tail)
  {
    var s := [h] + tail;
    forall a, c | 0 <= a < c < |tail|
      ensures tail[a].key != tail[c].key
    {
      assert tail[a] == s[a + 1] && tail[c] == s[c + 1];
    }
    forall j | 0 <= j < |tail|
      ensures tail[j].key != h.key
    {
      assert s[0] == h && tail[j] == s[j + 1];
    }
  }

  /** `.sort(([a], [b]) => a.localeCompare(b))` on buckets with distinct keys. */
  function SortByKey(s: seq<Bucket>): (r: seq<Bucket>)
    requires DistinctKeys(s)
    ensures SortedKeys(r)
    ensures multiset(r) == multiset(s)
    ensures KeySet(r) == KeySet(s)
    ensures multiset(Flatten(r)) == multiset(Flatten(s))
  {
    if |s| == 0 then []
    else
      var h, tail := s[0], s[1..];
      assert s == [h] + tail;
      DistinctTail(h, tail);
      ConsFacts(h, tail);
      Insert(h, SortByKey(tail))
  }

  /** The bucket keys the items give rise to. */
  function StoreKeys(items: seq<Item>): set<string> {
    set x | x in items :: BucketKey(x)
  }

  lemma GroupsKeys(acc: seq<Bucket>, items: seq<Item>)
    requires Groups(acc, items)
    ensures KeySet(acc) == StoreKeys(items)
  {
    forall k | k in KeySet(acc)
      ensures k in StoreKeys(items)
    {
      var i :| 0 <= i < |acc| && acc[i].key == k;
      FilterMembers(items, k, acc[i].items[0]);
    }
    forall x | x in items
      ensures BucketKey(x) in KeySet(acc)
    {
      FilterMembers(items, BucketKey(x), x);
    }
  }

  lemma GroupsMembers(acc: seq<Bucket>, items: seq<Item>, r: seq<Bucket>)
    requires Groups(acc, items) && multiset(r) == multiset(acc)
    ensures forall b | b in r :: b.items == Filter(items, b.key) && |b.items| > 0
  {
    forall b | b in r
      ensures b.items == Filter(items, b.key) && |b.items| > 0
    {
      assert b in multiset(acc);
      var i :| 0 <= i < |acc| && acc[i] == b;
    }
  }

  /** Grouped mode: one non-empty bucket per key, keys in increasing order
      with no special place for "Unassigned", every bucket holding exactly
      the items with its key in list order, and nothing lost or added. */
  function GroupByStore(items: seq<Item>): (r: seq<Bucket>)
    ensures SortedKeys(r)
    ensures forall b | b in r :: b.items == Filter(items, b.key) && |b.items| > 0
    ensures KeySet(r) == StoreKeys(items)
    ensures multiset(Flatten(r)) == multiset(items)
  {
    var acc := Reduce(items);
    ReduceGroups(items);
    var r := SortByKey(acc);
    GroupsKeys(acc, items);
    GroupsMembers(acc, items, r);
    r
  }

  /** Property names every plain object inherits from `Object.prototype`. */
  const InheritedNames: set<string> := {"constructor", "hasOwnProperty", "isPrototypeOf",
    "propertyIsEnumerable", "toLocaleString", "toString", "valueOf", "__proto__",
    "__defineGetter__", "__defineSetter__", "__lookupGetter__", "__lookupSetter__"}

  /** The reduce as written, on a plain `{}` accumulator: for a key that
      names an inherited property, `acc[key]` is already truthy, so no array
      is created, and `acc[key].push` throws a TypeError (None). */
  function ReduceAsWritten(items: seq<Item>): (r: Option<seq<Bucket>>)
    ensures r.Some? <==> forall x | x in items :: BucketKey(x) !in InheritedNames
    ensures r.Some? ==> r.value == Reduce(items)
  {
    if |items| == 0 then Some([])
    else
      var init := items[..|items| - 1];
      var x := items[|items| - 1];
      assert items == init + [x];
      match ReduceAsWritten(init)
      case None => None
      case Some(acc) => if BucketKey(x) in InheritedNames then None else Some(Push(acc, x))
  }

  /** An item at a store named "constructor" makes the grouped view throw,
      where the intended grouping shows it in its own bucket. */
  lemma InheritedStoreNameThrows(x: Item)
    requires x.store == Some("constructor")
    ensures ReduceAsWritten([x]).None?
    ensures GroupByStore([x]) == [Bucket("constructor", [x])]
  {
    SingleStoreKeepsOrder([x], "constructor");
  }

  /** Every item is in exactly one bucket: the one whose key is its own. */
  lemma ExactlyOneBucket(items: seq<Item>, x: Item)
    requires x in items
    ensures var r := GroupByStore(items);
      && (exists i | 0 <= i < |r| :: r[i].key == BucketKey(x))
      && (forall i | 0 <= i < |r| :: x in r[i].items <==> r[i].key == BucketKey(x))
  {
    var r := GroupByStore(items);
    assert BucketKey(x) in StoreKeys(items);
    forall i | 0 <= i < |r|
      ensures x in r[i].items <==> r[i].key == BucketKey(x)
    {
      assert r[i] in r;
      FilterMembers(items, r[i].key, x);
    }
  }

  function TotalSize(buckets: seq<Bucket>): nat {
    if |buckets| == 0 then 0 else |buckets[0].items| + TotalSize(buckets[1..])
  }

  lemma {:induction false} FlattenSize(buckets: seq<Bucket>)
    ensures |Flatten(buckets)| == TotalSize(buckets)
  {
    if |buckets| > 0 {
      FlattenSize(buckets[1..]);
    }
  }

  /** The bucket sizes add up to the number of items. */
  lemma BucketSizesSum(items: seq<Item>)
    ensures TotalSize(GroupByStore(items)) == |items|
  {
    var r := GroupByStore(items);
    FlattenSize(r);
    assert |multiset(Flatten(r))| == |multiset(items)|;
  }

  /** A null store, an empty store and a store named "Unassigned" share one
      bucket. */
  lemma UnassignedShared(items: seq<Item>, x: Item, y: Item)
    requires x in items && y in items
    requires x.store.None? || x.store == Some("")
    requires y.store == Some(Unassigned)
    ensures exists i | 0 <= i < |GroupByStore(items)| ::
      x in GroupByStore(items)[i].items && y in GroupByStore(items)[i].items
  {
    ExactlyOneBucket(items, x);
    ExactlyOneBucket(items, y);
  }

  lemma {:induction false} FilterAll(items: seq<Item>, k: string)
    requires forall x | x in items :: BucketKey(x) == k
    ensures Filter(items, k) == items
  {
    if |items| > 0 {
      FilterAll(items[..|items| - 1], k);
      assert items == items[..|items| - 1] + [items[|items| - 1]];
    }
  }

  /** Items that all share one store come out as a single bucket in their
      original order. */
  lemma SingleStoreKeepsOrder(items: seq<Item>, k: string)
    requires |items| > 0 && forall x | x in items :: BucketKey(x) == k
    ensures GroupByStore(items) == [Bucket(k, items)]
  {
    var r := GroupByStore(items);
    assert items[0] in items;
    assert StoreKeys(items) == {k};
    assert forall i | 0 <= i < |r| :: r[i].key in KeySet(r);
    FilterAll(items, k);
    if |r| > 1 {
      assert r[0].key == k && r[1].key == k;
      LessIrreflexive(k);
    }
    assert |r| > 0 by { assert k in KeySet(r); }
    assert r[0] in r;
  }

  /** What the page lists: the rows as loaded, or the store buckets. */
  datatype View = Flat(items: seq<Item>) | Grouped(buckets: seq<Bucket>)

  /** Flat mode lists the rows as loaded; grouped mode lists store buckets
      sorted by name that together hold the same rows. */
  function Render(items: seq<Item>, groupByStore: bool): (v: View)
    ensures v.Flat? <==> !groupByStore
    ensures v.Flat? ==> v.items == items
    ensures v.Grouped? ==> SortedKeys(v.buckets) && multiset(Flatten(v.buckets)) == multiset(items)
  {
    if groupByStore then Grouped(GroupByStore(items)) else Flat(items)
  }

  /** Both modes show the same items: flat mode is the list itself, and
      grouped mode is a rearrangement of it. */
  lemma ModesShowSameItems(items: seq<Item>)
    ensures Render(items, false) == Flat(items)
    ensures multiset(Flatten(Render(items, true).buckets)) == multiset(items)
  {
  }

  /** A `shopping_list` insert from the input box; quantity, unit and store
      are left to the table's defaults. */
  datatype NewItem = NewItem(ingredientName: string, userId: string)

  /** `addItem`: nothing for a blank name or without a user, otherwise an
      insert of the trimmed name. */
  function AddItem(newItem: string, user: Option<string>): (r: Option<NewItem>)
    ensures r.Some? <==> !AllSpace(newItem) && user.Some?
    ensures r.Some? ==> r.value.ingredientName == Trim(newItem) && r.value.userId == user.value
    ensures r.Some? ==> r.value.ingredientName != "" && Tight(r.value.ingredientName)
  {
    TrimEmpty(newItem);
    var name := Trim(newItem);
    if name == "" then None
    else match user
      case None => None
      case Some(uid) => Some(NewItem(name, uid))
  }

  /** `item.quantity ?? 1`: only a missing quantity is shown as 1; a stored
      0 is shown as 0. */
  function ShownQuantity(item: Item): (q: real)
    ensures Num(q) == Coalesce(NumberOrNull(item.quantity), Num(1.0))
  {
    item.quantity.GetOr(1.0)
  }

  /** `item.unit ?? "pieces"`: only a missing unit is shown as "pieces"; a
      stored empty unit is shown empty. */
  function ShownUnit(item: Item): (u: string)
    ensures Str(u) == Coalesce(TextOrNull(item.unit), Str("pieces"))
  {
    item.unit.GetOr("pieces")
  }
}

=== FILE: strings.dfy ===
/** The string operations of the ECMAScript standard library the application
    uses: `trim`, `split(sep).pop()`, and string comparison. */
module Strings {

  /** The code points `String.prototype.trim` removes: the WhiteSpace and
      LineTerminator productions of ECMA-262 (sections 12.2 and 12.3). */
  predicate IsSpace(c: char) {
    || c == '\t' || c == '\n' || c == '\U{000B}' || c == '\U{000C}' || c == '\r'
    || c == ' ' || c == '\U{00A0}' || c == '\U{1680}' || ('\U{2000}' <= c <= '\U{200A}')
    || c == '\U{2028}' || c == '\U{2029}' || c == '\U{202F}' || c == '\U{205F}'
    || c == '\U{3000}' || c == '\U{FEFF}'
  }

  predicate AllSpace(s: string) {
    forall i | 0 <= i < |s| :: IsSpace(s[i])
  }

  /** No white space at either end. */
  predicate Tight(s: string) {
    |s| == 0 || (!IsSpace(s[0]) && !IsSpace(s[|s| - 1]))
  }

  /** `r` occurs in `s` at `i` with only white space before and after it. */
  ghost predicate FramedAt(s: string, r: string, i: int) {
    0 <= i <= |s| - |r| && s[i..i + |r|] == r && AllSpace(s[..i]) && AllSpace(s[i + |r|..])
  }

  /** `r` is what trimming `s` must give: a tight piece of `s` framed by white space. */
  ghost predicate IsTrimOf(s: string, r: string) {
    Tight(r) && exists i :: FramedAt(s, r, i)
  }

  function TrimStart(s: string): (r: string)
    ensures |r| <= |s| && r == s[|s| - |r|..]
    ensures AllSpace(s[..|s| - |r|])
    ensures |r| > 0 ==> !IsSpace(r[0])
  {
    if |s| > 0 && IsSpace(s[0]) then TrimStart(s[1..]) else s
  }

  function TrimEnd(s: string): (r: string)
    ensures |r| <= |s| && r == s[..|r|]
    ensures AllSpace(s[|r|..])
    ensures |r| > 0 ==> !IsSpace(r[|r| - 1])
  {
    if |s| > 0 && IsSpace(s[|s| - 1]) then TrimEnd(s[..|s| - 1]) else s
  }

  /** `String.prototype.trim` */
  function Trim(s: string): (r: string)
    ensures IsTrimOf(s, r)
  {
    var a := TrimStart(s);
    var r := TrimEnd(a);
    TrimFramed(s, a, r);
    r
  }

  /** Cutting white space off the front and then off the back leaves a tight
      piece framed by white space. */
  lemma TrimFramed(s: string, a: string, r: string)
    requires |a| <= |s| && a == s[|s| - |a|..] && AllSpace(s[..|s| - |a|])
    requires |a| > 0 ==> !IsSpace(a[0])
    requires |r| <= |a| && r == a[..|r|] && AllSpace(a[|r|..])
    requires |r| > 0 ==> !IsSpace(r[|r| - 1])
    ensures Tight(r) && FramedAt(s, r, |s| - |a|)
  {
    var i := |s| - |a|;
    if |r| > 0 {
      assert r[0] == a[0];
    }
    assert s[i..i + |r|] == r;
    assert s[i + |r|..] == a[|r|..];
  }

  /** What `FramedAt` says, position by position. */
  lemma FramedPositions(s: string, r: string, i: int)
    requires FramedAt(s, r, i)
    ensures forall k | 0 <= k < i :: IsSpace(s[k])
    ensures forall k | 0 <= k < |r| :: s[i + k] == r[k]
    ensures forall k | i + |r| <= k < |s| :: IsSpace(s[k])
  {
    assert forall k | 0 <= k < i :: s[k] == s[..i][k];
    assert forall k | i + |r| <= k < |s| :: s[k] == s[i + |r|..][k - (i + |r|)];
  }

  /** A tight framed piece is empty exactly when the whole text is white space. */
  lemma FramedEmpty(s: string, r: string, i: int)
    requires FramedAt(s, r, i) && Tight(r)
    ensures |r| == 0 <==> AllSpace(s)
  {
    FramedPositions(s, r, i);
    if |r| > 0 {
      assert s[i] == r[0];
    }
  }

  /** A tight, non-empty framed piece starts and ends on a character that is
      not white space. */
  lemma FramedEnds(s: string, r: string, i: int)
    requires FramedAt(s, r, i) && Tight(r) && |r| > 0
    ensures !IsSpace(s[i]) && !IsSpace(s[i + |r| - 1])
  {
    FramedPositions(s, r, i);
    assert s[i + 0] == r[0] && s[i + (|r| - 1)] == r[|r| - 1];
  }

  /** Every character that is not white space lies inside a framed piece. */
  lemma FramedNonSpace(s: string, r: string, i: int, k: int)
    requires FramedAt(s, r, i) && 0 <= k < |s| && !IsSpace(s[k])
    ensures i <= k < i + |r|
  {
    FramedPositions(s, r, i);
  }

  /** Position of the first character of `s` that is not white space, or
      `|s|` when there is none. */
  function FirstSolid(s: string): (k: nat)
    ensures k <= |s| && (k < |s| ==> !IsSpace(s[k]))
    ensures forall j | 0 <= j < k :: IsSpace(s[j])
  {
    if |s| == 0 || !IsSpace(s[0]) then 0 else 1 + FirstSolid(s[1..])
  }

  /** Position just after the last character of `s` that is not white
      space, or 0 when there is none. */
  function EndSolid(s: string): (k: nat)
    ensures k <= |s| && (k > 0 ==> !IsSpace(s[k - 1]))
    ensures forall j | k <= j < |s| :: IsSpace(s[j])
  {
    if |s| == 0 || !IsSpace(s[|s| - 1]) then |s| else EndSolid(s[..|s| - 1])
  }

  /** A tight, non-empty framed piece runs from the first to just after the
      last character that is not white space. */
  lemma FramedCanonical(s: string, r: string, i: int)
    requires FramedAt(s, r, i) && Tight(r) && |r| > 0
    ensures i == FirstSolid(s) && i + |r| == EndSolid(s)
    ensures r == s[FirstSolid(s)..EndSolid(s)]
  {
    FramedEnds(s, r, i);
    var f, e := FirstSolid(s), EndSolid(s);
    assert f <= i;
    FramedNonSpace(s, r, i, f);
    assert i + |r| <= e;
    FramedNonSpace(s, r, i, e - 1);
    assert r == s[i..i + |r|];
  }

  /** Trimming has exactly one possible outcome: any tight piece of `s`
      framed by white space is `Trim(s)`. */
  lemma TrimUnique(s: string, r: string)
    requires IsTrimOf(s, r)
    ensures r == Trim(s)
  {
    var t := Trim(s);
    var i :| FramedAt(s, r, i);
    var j :| FramedAt(s, t, j);
    FramedEmpty(s, r, i);
    FramedEmpty(s, t, j);
    if |r| > 0 {
      FramedCanonical(s, r, i);
      FramedCanonical(s, t, j);
    } else {
      assert |t| == 0;
    }
  }

  /** A string without white space at its ends is its own trim. */
  lemma TrimTight(s: string)
    requires Tight(s)
    ensures Trim(s) == s
  {
    assert FramedAt(s, s, 0) by { assert s[..0] == [] && s[|s|..] == [] && s[0..|s|] == s; }
    TrimUnique(s, s);
  }

  /** Trimming is idempotent. */
  lemma TrimIdempotent(s: string)
    ensures Trim(Trim(s)) == Trim(s)
  {
    TrimTight(Trim(s));
  }

  /** The trimmed string is empty exactly when the input is all white space. */
  lemma TrimEmpty(s: string)
    ensures Trim(s) == "" <==> AllSpace(s)
  {
    if AllSpace(s) {
      assert FramedAt(s, "", 0) by { assert s[..0] == [] && s[0..] == s; }
      TrimUnique(s, "");
    }
    var j :| FramedAt(s, Trim(s), j);
    FramedPositions(s, Trim(s), j);
  }

  /** White space appended to a string does not survive trimming. */
  lemma TrimDropsTrailingSpace(s: string, w: string)
    requires AllSpace(w)
    ensures Trim(s + w) == Trim(s)
  {
    var t := Trim(s);
    var i :| FramedAt(s, t, i);
    FramedAppend(s, w, t, i);
    TrimUnique(s + w, t);
  }

  /** A piece framed by white space stays framed when white space is appended. */
  lemma FramedAppend(s: string, w: string, t: string, i: int)
    requires AllSpace(w) && FramedAt(s, t, i)
    ensures FramedAt(s + w, t, i)
  {
    var sw := s + w;
    assert sw[i..i + |t|] == s[i..i + |t|];
    assert sw[..i] == s[..i];
    assert sw[i + |t|..] == s[i + |t|..] + w;
  }

  /** `s.split(sep).pop()`: the text after the last `sep`, or all of `s` when
      it has none. */
  function AfterLast(s: string, sep: char): (r: string)
    ensures |r| <= |s| && r == s[|s| - |r|..]
    ensures sep !in r
    ensures |r| < |s| ==> s[|s| - |r| - 1] == sep
  {
    if |s| == 0 then ""
    else if s[|s| - 1] == sep then ""
    else
      var p := AfterLast(s[..|s| - 1], sep);
      SuffixSnoc(s, p);
      p + [s[|s| - 1]]
  }

  /** A suffix of all but the last character, extended by the last character,
      is a suffix. */
  lemma SuffixSnoc(s: string, p: string)
    requires |s| > 0 && |p| <= |s| - 1 && p == s[..|s| - 1][|s| - 1 - |p|..]
    ensures p + [s[|s| - 1]] == s[|s| - |p| - 1..]
  {
    var q := p + [s[|s| - 1]];
    forall k | 0 <= k < |q|
      ensures q[k] == s[|s| - |p| - 1 + k]
    {
      if k < |p| {
        assert q[k] == p[k] == s[..|s| - 1][|s| - 1 - |p| + k];
      }
    }
  }

  /** Splitting a name built as `base + sep + tail` with no `sep` in `tail`
      gives back `tail`. */
  lemma {:induction false} AfterLastOfJoin(base: string, sep: char, tail: string)
    requires sep !in tail
    ensures AfterLast(base + [sep] + tail, sep) == tail
  {
    var s := base + [sep] + tail;
    var r := AfterLast(s, sep);
    assert s[|s| - |tail|..] == tail;
    assert s[|s| - |tail| - 1] == sep;
  }

  /** Ordinal comparison, character by character: the string order the model
      uses wherever the application sorts by text. */
  predicate Less(a: string, b: string)
    decreases |a|
  {
    if |a| == 0 then |b| > 0
    else |b| > 0 && (a[0] < b[0] || (a[0] == b[0] && Less(a[1..], b[1..])))
  }

  lemma {:induction false} LessIrreflexive(a: string)
    ensures !Less(a, a)
    decreases |a|
  {
    if |a| > 0 {
      LessIrreflexive(a[1..]);
    }
  }

  lemma {:induction false} LessTransitive(a: string, b: string, c: string)
    requires Less(a, b) && Less(b, c)
    ensures Less(a, c)
    decreases |a|
  {
    if |a| > 0 && a[0] == b[0] && b[0] == c[0] {
      LessTransitive(a[1..], b[1..], c[1..]);
    }
  }

  lemma {:induction false} LessTotal(a: string, b: string)
    requires a != b
    ensures Less(a, b) || Less(b, a)
    decreases |a|
  {
    if |a| > 0 && |b| > 0 && a[0] == b[0] {
      assert a == [a[0]] + a[1..] && b == [b[0]] + b[1..];
      LessTotal(a[1..], b[1..]);
    }
  }

  lemma {:induction false} LessAsymmetric(a: string, b: string)
    requires Less(a, b)
    ensures !Less(b, a)
    decreases |a|
  {
    if |a| > 0 && |b| > 0 && a[0] == b[0] {
      LessAsymmetric(a[1..], b[1..]);
    }
  }
}

=== FILE: week.dfy ===
/** The week arithmetic of the meal-plan page: the Monday that starts the
    week of a day, paging by whole weeks, and the last day of the displayed
    range. Days are day numbers (day 0 is 1970-01-01, a Thursday); the page
    keeps a week as the `full-date` text of its Monday. */
module Week {
  import opened Wrappers
  import opened FullDate

  const Sunday := 0
  const Monday := 1

  /** `getDay()`: Sunday is 0, Monday 1, ..., Saturday 6. */
  function Weekday(n: int): (w: int)
    ensures 0 <= w < 7
  {
    (n + 4) % 7
  }

  /** `getWeekStart` on day numbers: a Sunday goes back six days, every other
      day goes back to the Monday of its week. */
  function WeekStart(n: int): (r: int)
    ensures Weekday(r) == Monday
    ensures n - 6 <= r <= n
  {
    var day := Weekday(n);
    n + (if day == 0 then -6 else 1 - day)
  }

  /** The week start is the one Monday among the seven days ending at `n`. */
  lemma WeekStartUnique(n: int, m: int)
    requires Weekday(m) == Monday && n - 6 <= m <= n
    ensures m == WeekStart(n)
  {
    var r := WeekStart(n);
    assert (m + 4) % 7 == (r + 4) % 7;
  }

  /** A week start is its own week start. */
  lemma WeekStartIdempotent(n: int)
    ensures WeekStart(WeekStart(n)) == WeekStart(n)
  {
    WeekStartUnique(WeekStart(n), WeekStart(n));
  }

  /** Shifting by whole weeks keeps the weekday. */
  lemma WeekdayPeriodic(n: int, weeks: int)
    ensures Weekday(n + 7 * weeks) == Weekday(n)
  {
    assert n + 7 * weeks + 4 == (n + 4) + 7 * weeks;
  }

  const MinutesPerDay := 1440

  /** `getWeekStart(new Date())` as the page computes it, on a device whose
      clock reads `now` minutes after 1970-01-01T00:00Z and whose local time
      is `offset` minutes ahead of UTC (no daylight-saving change in
      between): the weekday is taken from the local date, the shift is made
      on the local date, but the key is the UTC date of the result. The
      result is the day number of the key. */
  function WeekStartAsWritten(now: int, offset: int): (r: int)
    ensures r - now / MinutesPerDay == WeekStart((now + offset) / MinutesPerDay) - (now + offset) / MinutesPerDay
  {
    var localDay := (now + offset) / MinutesPerDay;
    var day := Weekday(localDay);
    (now / MinutesPerDay) + (if day == 0 then -6 else 1 - day)
  }

  /** At 00:30 on Monday 2024-01-01 in UTC+2 the page keys the week by
      Sunday 2023-12-31, and pages by Sundays from then on. */
  lemma WeekStartAsWrittenCanBeSunday()
    ensures var now := 19722 * MinutesPerDay + 22 * 60 + 30;
      && (now + 120) / MinutesPerDay == 19723 && Weekday(19723) == Monday
      && WeekStartAsWritten(now, 120) == 19722 && Weekday(19722) == Sunday
  {
  }

  /** Where the local date and the UTC date agree, and in particular on a
      device set to UTC, the page's computation is `WeekStart` and gives a
      Monday. */
  lemma WeekStartAsWrittenInUtc(now: int, offset: int)
    requires (now + offset) / MinutesPerDay == now / MinutesPerDay
    ensures WeekStartAsWritten(now, offset) == WeekStart(now / MinutesPerDay)
    ensures Weekday(WeekStartAsWritten(now, offset)) == Monday
  {
  }

  /** `getWeekStart(today)`: the key of the Monday of today's week, None for
      the RangeError at the edge of the representable range. */
  function WeekStartKey(today: int): (r: Option<string>)
    ensures r.Some? <==> InRange(WeekStart(today))
    ensures r.Some? ==> DayOf(r.value) == Some(WeekStart(today))
  {
    var m := WeekStart(today);
    if InRange(m) then DayOfKeyOf(m); KeyOf(m) else None
  }

  /** `addWeeks(key, weeks)`: the key `7 * weeks` days later; None for the
      RangeError of an invalid key or a result out of range. */
  function AddWeeks(key: string, weeks: int): (r: Option<string>)
    ensures r.Some? <==> DayOf(key).Some? && InRange(DayOf(key).value + 7 * weeks)
    ensures r.Some? ==> DayOf(r.value) == Some(DayOf(key).value + 7 * weeks)
  {
    match DayOf(key)
    case None => None
    case Some(n) =>
      if InRange(n + 7 * weeks) then DayOfKeyOf(n + 7 * weeks); KeyOf(n + 7 * weeks)
      else None
  }

  /** Paging forward and back again returns to the same week key. */
  lemma AddWeeksRoundTrip(n: int, weeks: int)
    requires InRange(n) && InRange(n + 7 * weeks)
    ensures var key := KeyOf(n).value;
      AddWeeks(key, weeks).Some? && AddWeeks(AddWeeks(key, weeks).value, -weeks) == Some(key)
  {
    DayOfKeyOf(n);
    DayOfKeyOf(n + 7 * weeks);
  }

  /** Paging a Monday key lands on a Monday key. */
  lemma AddWeeksKeepsMonday(key: string, weeks: int)
    requires DayOf(key).Some? && Weekday(DayOf(key).value) == Monday
    requires AddWeeks(key, weeks).Some?
    ensures Weekday(DayOf(AddWeeks(key, weeks).value).value) == Monday
  {
    WeekdayPeriodic(DayOf(key).value, weeks);
  }

  /** The end date of `formatWeekRange`: six days after the start; None for
      an invalid start or an end out of range. */
  function WeekRangeEnd(key: string): (r: Option<int>)
    ensures r.Some? <==> DayOf(key).Some? && InRange(DayOf(key).value + 6)
    ensures r.Some? ==> r.value - DayOf(key).value == 6
  {
    match DayOf(key)
    case None => None
    case Some(n) => if InRange(n + 6) then Some(n + 6) else None
  }

  /** A week that starts on a Monday is displayed as ending on a Sunday. */
  lemma WeekRangeEndsOnSunday(key: string)
    requires DayOf(key).Some? && Weekday(DayOf(key).value) == Monday
    requires WeekRangeEnd(key).Some?
    ensures Weekday(WeekRangeEnd(key).value) == Sunday
  {
    MondayPlusSix(DayOf(key).value);
  }

  /** Six days after a Monday is a Sunday. */
  lemma MondayPlusSix(n: int)
    requires Weekday(n) == Monday
    ensures Weekday(n + 6) == Sunday
  {
    var q := (n + 4) / 7;
    assert n + 4 == 7 * q + 1;
    assert n + 6 + 4 == 7 * (q + 1);
  }
}

=== FILE: wrappers.dfy ===
/** Optional values, used wherever the application has `null`/`undefined`
    or an operation that can fail without further detail. */
module Wrappers {

  datatype Option<+T> = None | Some(value: T) {

    /** The value, or `default` when there is none. */
    function GetOr(default: T): T {
      match this
      case Some(v) => v
      case None => default
    }
  }
}
